=== FILE: README.md ===
# Parts-list OCR: quantity markers and part numbers, modelled in Dafny

The system reads a scanned parts drawing. It finds quantity markers such as
"3x" on the page and reads the part number printed above each one, using
several OCR passes. It then returns one record per marker: the part id,
the quantity and the crop that was searched. A fallback reads a single
crop in one pass.

This project models the decision logic of `ocrtest5withimges.py`. It
covers the following steps.

- **The word table** (`Ocr`, `ocr_df`). The engine's rows are kept when
  their text is present and not blank once stripped, and their confidence
  reaches the floor of 40. A non-numeric confidence counts as -1. A
  missing or empty image gives no rows.
- **Quantity markers** (`Quantities`, `extract_quantities`). A stripped,
  lower-cased text of the form `<digits>x` is a marker. Only the first
  marker in each 10-pixel grid cell of its top-left corner is kept. The
  survivors are stably sorted by horizontal centre, which is kept doubled
  (2x + w) so that no fractions are needed.
- **The identifier recognizer** (`PartNumbers`, `ocr_partnum_from_crop`).
  Crops with a side under 20 pixels are refused. Otherwise four passes run
  in a fixed order: clockwise then counter-clockwise, normal then inverted
  polarity. Each word is normalised: stripped, spaces removed, and a
  trailing ".0" dropped. A word matching `^[A-Z0-9]+$` is a candidate. A
  candidate replaces the best so far only when its confidence is strictly
  higher.
- **Assignment** (`Assignment`, `assign_partnums_by_quantity`). Each marker
  gets a search window. It runs from the top of the page to 5 pixels above
  the marker and reaches `int(max(80, 2.5 w))` to either side of the
  marker's centre. It is clipped to the page horizontally only. A
  degenerate window yields no part number. Otherwise the best candidate of
  the crop is used.
- **Single-crop fallback** (`SingleCrop`, `analyze_single_crop_for_api`).
  The last quantity word (`\d+[xX]` or `[xX]\d+`) sets the quantity, which
  defaults to 1. The first identifier word of highest confidence becomes
  the part id, which defaults to "UNKNOWN". An identifier word is either
  all digits with a value above 20, or contains both a digit and a
  letter. Words under confidence 30 are ignored.
- **The API output** (`Display`, `analyze_image_for_api`). Each crop box
  is clipped to the page and cut out with numpy's slice rules, and empty
  crops are skipped. The marker box is intersected with the crop for the
  red outline.

The OCR engine is a parameter. The page pass receives the rows the engine
reports for the page. Crop passes receive a function from the crop box and
the pass to the rows the engine reports. Images are modelled by their
dimensions only.

Proved properties include the following:
- the table filter admits exactly the right rows;
- a written count "<n>x" reads back as n;
- de-duplication leaves one marker per grid cell, and it is the first one
  detected;
- the sort is ordered, a permutation and stable;
- the recognizer returns the first candidate of highest confidence, and
  nothing when there is none;
- a marker within the page lies horizontally inside its own window;
- the displayed region is exactly the crop box clipped to the page;
- an entry is skipped exactly when its window is degenerate;
- the single-crop quantity is the last quantity word's value, and its
  part id is the first best identifier word, or "UNKNOWN" exactly when
  there is none.

Some behaviours of the code as written, proved about the model:
- The row filters (`Ocr.Admitted`, `PartNumbers.CandidatesOf`,
  `Quantities.Markers`) append row by row in table order, so their results
  keep the rows' order; `Quantities.MarkersPrefix` states it for the
  markers, whose order decides which one survives in a grid cell.
- The red marker outline is never drawn (`Display.MarkerNeverDrawn`). The
  crop always ends 5 pixels above the marker's top edge, so the
  intersection with the marker box is always empty.
- The identifier pattern uses `re.match` with `$`, which also accepts one
  trailing line feed. `PartNumbers.MatchesIdPattern` keeps that.
- An identifier actually read as "UNKNOWN", or an empty one, cannot be
  told apart from no identifier in the output (`Display.PartIdUnknown`).

Two details of the window arithmetic, as the code computes it:
- The window is centred on the marker's centre x + w/2, not on its left
  edge. For a marker at x = 100 with width 40 the window spans columns
  20 to 220; one centred on x would span 0 to 200
  (`Assignment.ExampleWindow`).
- The window's bottom edge is not clipped to the page height. Only
  numpy's slicing limits the crop to the page's rows, and the reported
  crop box keeps the unclipped height (`Assignment.CropImage`).

## Model

| member | source | states |
|---|---|---|
| Geometry.TruncHalf | ocrtest5withimges.py:104-105 | Python's `int()` of a half truncates toward zero: 2r is within one of n, below it for n >= 0 and above it for n < 0 |
| Geometry.SliceLength | ocrtest5withimges.py:111 | the length of a numpy slice with non-negative bounds is the clamped difference max(0, min(stop, n) - min(start, n)) |
| Text.Strip | ocrtest5withimges.py:34 | the stripped text has no whitespace at either end and is no longer than the input |
| Text.StripTrimmed | ocrtest5withimges.py:34 | stripping a text without whitespace at its ends leaves it unchanged |
| Text.StripIdempotent | ocrtest5withimges.py:48 | stripping twice is the same as stripping once |
| Text.RemoveSpaces | ocrtest5withimges.py:78 | after `replace(" ", "")` no space remains and the text is no longer |
| Text.RemoveSpacesChar | ocrtest5withimges.py:78 | a single space is removed and any other single character is kept |
| Text.RemoveSpacesAppend | ocrtest5withimges.py:78 | removing spaces from a concatenation removes them from each part, so the other characters are kept in order |
| Text.NumeralValue | ocrtest5withimges.py:50 | `int(str(n)) == n`: a written numeral is a non-empty digit string that reads back as n |
| Text.FirstDigitRun | ocrtest5withimges.py:149 | `re.findall(r"\d+")` finds nothing exactly when there is no digit, and its first match is a non-empty digit run |
| Text.FirstDigitRunIsFirst | ocrtest5withimges.py:149 | the first match is the leftmost maximal digit run: no digit precedes it and it ends at the end of the text or before a non-digit |
| Text.FirstDigitRunOfMarker | ocrtest5withimges.py:148-150 | for digits d and a non-digit c, the first digit run of "d c" and of "c d" is d |
| Ocr.Admitted | ocrtest5withimges.py:33-37 | every kept row has non-blank stripped text and a confidence at or above the floor, and there are no more rows than the engine gave |
| Ocr.AdmittedExactly | ocrtest5withimges.py:33-37 | a cleaned row is in the table exactly when the filter admits the engine row it comes from |
| Ocr.OcrTable | ocrtest5withimges.py:29-31 | a missing or empty image gives an empty table |
| Quantities.ParseMarker | ocrtest5withimges.py:48-51 | a parsed marker keeps the box of its row |
| Quantities.MarkersExactly | ocrtest5withimges.py:47-51 | a marker is read exactly when some row of the table parses to it |
| Quantities.MarkersPrefix | ocrtest5withimges.py:47-51 | markers keep the row order: those of the first k rows are a prefix of those of the whole table |
| Quantities.ParseMarkerOnlyWritten | ocrtest5withimges.py:48-50 | a row parses as a marker only when its stripped text is digits followed by `x` or `X`, and the quantity is those digits' value |
| Quantities.MarkerRoundTrip | ocrtest5withimges.py:48-50 | writing n as "<n>x" or "<n>X" and parsing it back gives quantity n with the row's box |
| Quantities.FirstPerCellDistinct | ocrtest5withimges.py:53-55 | after de-duplication no two markers share a 10-pixel grid cell |
| Quantities.FirstPerCellCells | ocrtest5withimges.py:53-55 | de-duplication keeps every occupied grid cell and adds none |
| Quantities.FirstPerCellKeepsFirsts | ocrtest5withimges.py:53-55 | the marker detected first in each cell survives |
| Quantities.FirstPerCellOnlyFirsts | ocrtest5withimges.py:53-55 | every survivor is the first detected in its cell |
| Quantities.InsertByCxPerm | ocrtest5withimges.py:60 | insertion adds exactly the one marker to the multiset of markers |
| Quantities.InsertByCxMembers | ocrtest5withimges.py:60 | the markers after insertion are the list's markers and the new one |
| Quantities.InsertByCxSorted | ocrtest5withimges.py:60 | inserting into a list ordered by centre keeps it ordered |
| Quantities.InsertByCxStable | ocrtest5withimges.py:60 | the inserted marker goes in front of the markers with the same centre and other centres are untouched |
| Quantities.SortByCxPerm | ocrtest5withimges.py:60 | the sort's result is a permutation of its input |
| Quantities.SortByCxMembers | ocrtest5withimges.py:60 | the sort keeps exactly the markers it was given |
| Quantities.SortByCxSorted | ocrtest5withimges.py:60 | the sort's result is ordered by centre |
| Quantities.SortByCxStable | ocrtest5withimges.py:60 | the sort is stable: markers with equal centres keep their detection order |
| Quantities.SortByCxCells | ocrtest5withimges.py:60 | sorting keeps the set of occupied cells and their distinctness |
| Quantities.CellsHasCell | ocrtest5withimges.py:53-55 | a cell is in the seen-cells set exactly when some marker read so far occupies it |
| Quantities.DedupStep | ocrtest5withimges.py:53-58 | one row of the scan appends its marker exactly when its cell was not seen, and adds its cell to the seen set |
| Quantities.ScanMarkers | ocrtest5withimges.py:47-59 | the row loop with its seen-cells set produces exactly the first marker of each cell, in detection order |
| Quantities.ExtractQuantities | ocrtest5withimges.py:40-61 | the loop with its seen-cells set computes the reference result; the result is sorted by centre, has one marker per cell, and occupies exactly the cells of the markers read |
| PartNumbers.PassImage | ocrtest5withimges.py:70-74 | rotating and upscaling by 3 empties a crop exactly when the crop is empty, so the `th is None` skip never fires for a crop that passed the guards |
| PartNumbers.CandidateWithoutLineFeed | ocrtest5withimges.py:82 | a text with no line feed is a candidate exactly when it is one or more of A-Z and 0-9 |
| PartNumbers.NumericCellNormalises | ocrtest5withimges.py:78-79 | a numeric cell rendered "<n>.0" normalises back to the numeral of n, which is a candidate |
| PartNumbers.CandidatesOf | ocrtest5withimges.py:77-85 | every candidate of a table has identifier text and confidence at least 40 |
| PartNumbers.CandidatesOfExactly | ocrtest5withimges.py:77-85 | a candidate belongs to a table exactly when some row's normalised text is an identifier and the candidate is that text with the row's confidence |
| PartNumbers.CandidatesFromRows | ocrtest5withimges.py:77-85 | every candidate of a table is the normalised text and confidence of one of its rows |
| PartNumbers.RowsGiveCandidates | ocrtest5withimges.py:77-85 | every row whose normalised text is an identifier contributes that text and its confidence |
| PartNumbers.CropCandidates | ocrtest5withimges.py:63-67 | a crop with a side under 20 pixels yields no candidates; every candidate has identifier text and confidence at least 40 |
| PartNumbers.FirstMaxAt | ocrtest5withimges.py:83-85 | the running strict-greater choice ends on a candidate that is strictly above every earlier one and at least every later one |
| PartNumbers.FirstMaxIsBestChoice | ocrtest5withimges.py:69-86 | the running choice meets the selection rule: none exactly when there are no candidates, otherwise the first of highest confidence |
| PartNumbers.BestChoiceUnique | ocrtest5withimges.py:84-85 | the selection rule determines one result at most |
| PartNumbers.PassOrder | ocrtest5withimges.py:70-72 | pass 2r+v is the v-th polarity of the r-th rotation, fixing the order of the four passes |
| PartNumbers.ScanTable | ocrtest5withimges.py:77-85 | one pass's row loop extends the running choice over that table's candidates |
| PartNumbers.ScanPass | ocrtest5withimges.py:73-85 | one pass extends the running choice over that pass's candidates |
| PartNumbers.ScanPasses | ocrtest5withimges.py:69-86 | the nested rotation and polarity loops end on the running choice over all four passes' candidates |
| PartNumbers.PartnumFromCrop | ocrtest5withimges.py:63-86 | the result follows the selection rule over all four passes' candidates, is None for small crops, and a result is a candidate with confidence at least 40 |
| Assignment.Pad | ocrtest5withimges.py:100 | the pad is at least 80 and is the floor of max(160, 5w)/2, that is `int(max(80, w * 2.5))` |
| Assignment.SearchWindow | ocrtest5withimges.py:100-105 | the window starts at the page top and its bottom is max(0, y - 5); the left edge is 0 exactly when cx - pad is below 1, and otherwise is cx - pad truncated toward zero; the right edge is the page width when cx + pad reaches it, and otherwise is cx + pad truncated toward zero |
| Assignment.CropBox | ocrtest5withimges.py:107-113 | the crop box has non-negative sizes, at least one of them 0 exactly when the window is degenerate, and spans the window otherwise; its width is max(0, right - left) and its height max(0, bottom - top) in both branches |
| Assignment.CropImage | ocrtest5withimges.py:111 | the crop of a non-degenerate window has the window's width and the smaller of its bottom and the page height |
| Assignment.AssignedFor | ocrtest5withimges.py:95-121 | an entry copies its marker's quantity and box, has a part number exactly when it has a confidence, has as crop box the crop box of its marker's search window (so it is horizontally within the page when its width is positive), and has no part number when its crop is empty |
| Assignment.Assignments | ocrtest5withimges.py:95-121 | one entry per marker, the i-th for the i-th marker |
| Assignment.WindowCoversMarker | ocrtest5withimges.py:100-105 | a marker lying within the page lies horizontally inside its own window |
| Assignment.ExampleWindow | ocrtest5withimges.py:100-105 | a marker at x = 100 with width 40 and y = 200 gets the window of columns 20 to 220 and rows 0 to 195 |
| Assignment.AssignedFollowsRule | ocrtest5withimges.py:107-120 | a degenerate window gives no reading; otherwise the reading follows the selection rule over the crop's candidates, and a reading is a candidate with confidence at least 40 |
| Assignment.AssignOne | ocrtest5withimges.py:96-121 | the loop body's arithmetic produces exactly the reference entry for the marker |
| Assignment.AssignAll | ocrtest5withimges.py:95-121 | the loop over the markers produces one reference entry per marker, in order |
| Assignment.AssignPartnums | ocrtest5withimges.py:88-123 | the result is one entry per extracted marker in order, ordered by marker centre, and no two entries' markers share a grid cell |
| SingleCrop.QtyReading | ocrtest5withimges.py:142-150 | a word sets a quantity only when it is non-blank, has confidence at least 30 and matches a quantity pattern |
| SingleCrop.QtyReadingIffPattern | ocrtest5withimges.py:142-150 | a word sets a quantity exactly when it is non-blank, has confidence at least 30 and matches a quantity pattern |
| SingleCrop.QuantityWordDigits | ocrtest5withimges.py:148-150 | every quantity word has a digit run, so the `if nums` guard always holds |
| SingleCrop.QuantityRoundTrip | ocrtest5withimges.py:148-150 | "<n>x", "<n>X", "x<n>" and "X<n>" read with enough confidence set quantity n |
| SingleCrop.SuffixQuantityReads | ocrtest5withimges.py:143-150 | a digit string followed by "x" or "X" read with enough confidence sets the quantity to its value |
| SingleCrop.PrefixQuantityReads | ocrtest5withimges.py:143-150 | "x" or "X" followed by a digit string read with enough confidence sets the quantity to its value |
| SingleCrop.UnknownIsNotId | ocrtest5withimges.py:135 | the default "UNKNOWN" is not an identifier word |
| SingleCrop.SmallNumberIgnored | ocrtest5withimges.py:152 | a plain number up to 20 is neither a quantity nor an identifier |
| SingleCrop.QuantityDefault | ocrtest5withimges.py:134 | with no quantity word the quantity is 1 |
| SingleCrop.QuantityFromLast | ocrtest5withimges.py:141-150 | the last quantity word decides the quantity |
| SingleCrop.IdScanSource | ocrtest5withimges.py:151-155 | the running id is "UNKNOWN" at 0 or the text and confidence of an identifier word |
| SingleCrop.IdUnknownIffNoHit | ocrtest5withimges.py:135-155 | the part id is "UNKNOWN" exactly when no word is an identifier word |
| SingleCrop.IdScanAboveHit | ocrtest5withimges.py:153-155 | after an identifier word the running confidence is at least that word's |
| SingleCrop.IdFromFirstBest | ocrtest5withimges.py:141-155 | the part id is the identifier word that beats every earlier one strictly and every later one at least |
| SingleCrop.AnalyzeSingleCrop | ocrtest5withimges.py:125-164 | the loop computes the reference quantity and part id, and the part id is "UNKNOWN" exactly when no word is an identifier word |
| Display.Displayed | ocrtest5withimges.py:173-206 | a record carries the entry's part id and quantity, its region lies within the page and is not empty, and a marker outline lies within the region |
| Display.DisplayedIsClippedBox | ocrtest5withimges.py:178-191 | for a crop box at a non-negative corner, the region is exactly the box's pixels inside the page, the entry is skipped exactly when there are none, and the outline covers exactly the marker's pixels in the region |
| Display.DisplayedRegionIsSearchCrop | ocrtest5withimges.py:178-182 | the region shown has the size of the crop that was searched for the part number |
| Display.SkippedIffDegenerate | ocrtest5withimges.py:184 | on a page with rows, an entry is skipped exactly when its search window is degenerate |
| Display.MarkerNeverDrawn | ocrtest5withimges.py:186-197 | no record of an assigned entry carries a marker outline, since the crop ends above the marker |
| Display.PartIdUnknown | ocrtest5withimges.py:174 | the part id is "UNKNOWN" exactly when there is no part number, the part number itself reads "UNKNOWN", or it is empty; otherwise it is the part number |
| Display.Outputs | ocrtest5withimges.py:173-206 | there are no more records than entries |
| Display.OutputsMembers | ocrtest5withimges.py:173-206 | a record is output exactly when it is the record of some entry |
| Display.OutputsWithoutMarker | ocrtest5withimges.py:186-197 | no output record for assigned entries carries a marker outline |
| Display.DisplayOne | ocrtest5withimges.py:174-206 | the loop body's clipping and intersection produce exactly the reference record |
| Display.RecordsOf | ocrtest5withimges.py:173-206 | the loop over the entries produces exactly the reference records, skipping empty crops |
| Display.AnalyzeImage | ocrtest5withimges.py:167-208 | the output is the records of the shown entries in order, at most one per marker, none with a marker outline |

## Left out

- Image processing is not modelled: grey conversion, Gaussian blur, Otsu thresholding, rotation and cubic upscaling are represented only by their effect on image dimensions. The OCR engine (Tesseract through pytesseract) is a parameter that supplies the rows it would report.
- PNG encoding and base64 of the crops and of the single-crop input, and the drawing of the outline, are left out; a record holds the page region and the outline corners instead of the encoded image.
- The HTTP layer in `main.py` is not part of this model.
- Confidences are exact reals; floating-point rounding is not modelled. A `NaN` text cell is an absent text, and a non-numeric confidence is an absent one, read as -1.
- Texts are ASCII: the Unicode reach of Python's `\d`, `str.isdigit`, `str.lower` and `str.strip` is not modelled, since the engine's whitelists admit only ASCII.
- The DataFrame's own type inference, which renders a numeric cell as "105304.0", is represented by the engine supplying that text.
- The per-crop engine is indexed by the crop box and the pass; two crops with the same box on one page are the same pixels, so nothing is lost.
- `analyze_single_crop_for_api` takes the engine's word list directly; the engine's `conf` values are taken as numbers, so a value `float()` cannot parse is not modelled.
- Text.Strip: states only that the result is trimmed and no longer; that it is a contiguous slice of the input is not stated.
- Display.Displayed: the pixel-level characterization of the region and the outline is stated separately (`Display.DisplayedIsClippedBox`) and needs a crop box with a non-negative corner and sizes, which every assigned entry has.

=== FILE: assignment.dfy ===
/** Pairing each quantity marker with the identifier printed above it
    (`assign_partnums_by_quantity`): a search window is laid over the page
    area above every marker, and the best identifier read in that window
    becomes the marker's part number. */
module Assignment {
  import opened Wrappers
  import opened Geometry
  import opened Ocr
  import opened Quantities
  import opened PartNumbers

  /** The horizontal reach on each side of the marker's centre is at least
      this many pixels. */
  const PAD_MIN: int := 80
  /** The window stops this many pixels above the marker's top edge. */
  const GAP: int := 5

  /** `int(max(80, w * 2.5))`: the larger of 80 and two and a half marker
      widths, truncated. When the product exceeds 80 it is positive, so
      truncation is the floor of 5w/2. */
  function Pad(w: int): (pad: int)
    ensures pad >= PAD_MIN
    ensures 2 * pad <= Max(2 * PAD_MIN, 5 * w) < 2 * pad + 2
  {
    if 5 * w > 2 * PAD_MIN then (5 * w) / 2 else PAD_MIN
  }

  /** A search window as its four edges: columns [left, right), rows
      [top, bottom). */
  datatype Window = Window(left: int, top: int, right: int, bottom: int)

  /** The window above a marker: from the top of the page down to 5 pixels
      above the marker, reaching `pad` to either side of its centre,
      clipped to the page horizontally only. The centre is x + w/2, so
      `int(cx - pad)` is TruncHalf(2x + w - 2 pad). */
  function SearchWindow(q: Quantity, pageWidth: nat): (win: Window)
    ensures win.top == 0 && win.left >= 0 && win.right <= pageWidth
    ensures win.bottom == Max(0, q.box.y - GAP)
    ensures var lo := DoubledCx(q) - 2 * Pad(q.box.w);
      (win.left == 0 <==> lo < 2) && (win.left > 0 ==> 2 * win.left <= lo < 2 * win.left + 2)
    ensures var hi := DoubledCx(q) + 2 * Pad(q.box.w);
      (hi >= 2 * pageWidth ==> win.right == pageWidth) &&
      (hi < 2 * pageWidth && hi >= 0 ==> 2 * win.right <= hi < 2 * win.right + 2) &&
      (hi < 2 * pageWidth && hi < 0 ==> 2 * win.right - 2 < hi <= 2 * win.right)
  {
    var pad := Pad(q.box.w);
    Window(Max(0, TruncHalf(DoubledCx(q) - 2 * pad)), 0,
           Min(pageWidth, TruncHalf(DoubledCx(q) + 2 * pad)), Max(0, q.box.y - GAP))
  }

  /** No crop is taken when the window has no rows or no columns. */
  predicate Degenerate(win: Window) {
    win.bottom <= win.top || win.right <= win.left
  }

  /** The reported crop box (left, top, width, height); both sizes are
      floored at 0 for a degenerate window. */
  function CropBox(win: Window): (b: Box)
    ensures b.x == win.left && b.y == win.top && b.w >= 0 && b.h >= 0
    ensures Degenerate(win) <==> b.w == 0 || b.h == 0
    ensures !Degenerate(win) ==> b.x + b.w == win.right && b.y + b.h == win.bottom
    ensures b.w == Max(0, win.right - win.left) && b.h == Max(0, win.bottom - win.top)
  {
    if Degenerate(win) then Box(win.left, win.top, Max(0, win.right - win.left), Max(0, win.bottom - win.top))
    else Box(win.left, win.top, win.right - win.left, win.bottom - win.top)
  }

  /** `gray[top:bottom, left:right]`, with numpy's slice clamping. */
  function CropImage(win: Window, page: Image): (crop: Image)
    ensures win.top == 0 && 0 <= win.left < win.right <= page.width && win.bottom > 0 ==>
      crop.height == Min(win.bottom, page.height) && crop.width == win.right - win.left
  {
    Image(SliceLength(win.top, win.bottom, page.height), SliceLength(win.left, win.right, page.width))
  }

  /** One entry of the result: the marker's quantity and box, the crop
      box, and the identifier with its confidence when one was read. */
  datatype Assigned = Assigned(qty: nat, qtyBox: Box, cropBox: Box, partnum: Option<string>, partnumConf: Option<real>)

  /** The identifier and confidence of an entry, as one optional pair. */
  function Reading(a: Assigned): Option<Candidate> {
    if a.partnum.Some? && a.partnumConf.Some? then Some(Candidate(a.partnum.value, a.partnumConf.value)) else None
  }

  /** What the loop produces for one marker. The crop engine is indexed by
      the crop box, which fixes the pixels it is shown. */
  function AssignedFor(q: Quantity, page: Image, engine: Box -> Pass -> seq<RawRow>): (a: Assigned)
    ensures a.qty == q.qty && a.qtyBox == q.box
    ensures a.partnum.Some? <==> a.partnumConf.Some?
    ensures a.cropBox.y == 0 && a.cropBox.x >= 0 && a.cropBox.w >= 0 && a.cropBox.h >= 0
    ensures a.cropBox.w > 0 ==> a.cropBox.x + a.cropBox.w <= page.width
    ensures a.cropBox.h == 0 || a.cropBox.h + GAP == q.box.y
    ensures a.cropBox.w == 0 || a.cropBox.h == 0 ==> a.partnum == None
    ensures a.cropBox == CropBox(SearchWindow(q, page.width))
  {
    var win := SearchWindow(q, page.width);
    var box := CropBox(win);
    var best := if Degenerate(win) then None else FirstMax(CropCandidates(CropImage(win, page), engine(box)));
    Assigned(q.qty, q.box, box,
             if best.Some? then Some(best.value.text) else None,
             if best.Some? then Some(best.value.conf) else None)
  }

  /** The entries for a list of markers, one per marker, in order. */
  function Assignments(qs: seq<Quantity>, page: Image, engine: Box -> Pass -> seq<RawRow>): (rs: seq<Assigned>)
    ensures |rs| == |qs|
    ensures forall i :: 0 <= i < |qs| ==> rs[i] == AssignedFor(qs[i], page, engine)
  {
    if qs == [] then [] else Assignments(qs[..|qs| - 1], page, engine) + [AssignedFor(qs[|qs| - 1], page, engine)]
  }

  lemma AssignmentsStep(qs: seq<Quantity>, i: int, page: Image, engine: Box -> Pass -> seq<RawRow>)
    requires 0 <= i < |qs|
    ensures Assignments(qs[..i + 1], page, engine) == Assignments(qs[..i], page, engine) + [AssignedFor(qs[i], page, engine)]
  {
    assert qs[..i + 1][..i] == qs[..i];
  }

  /** A marker lying within the page is always inside its own window
      horizontally: the reach on each side is at least half its width. */
  lemma WindowCoversMarker(q: Quantity, pageWidth: nat)
    requires 0 <= q.box.x && 0 <= q.box.w && q.box.x + q.box.w <= pageWidth
    ensures var win := SearchWindow(q, pageWidth);
      win.left <= q.box.x && q.box.x + q.box.w <= win.right
  {
    var pad := Pad(q.box.w);
    assert q.box.w <= 2 * pad;
    var lo := TruncHalf(DoubledCx(q) - 2 * pad);
    var hi := TruncHalf(DoubledCx(q) + 2 * pad);
    assert lo <= q.box.x;
    assert q.box.x + q.box.w <= hi;
  }

  /** A marker 40 wide at x = 100, y = 200 has centre 120 and reach 100:
      the window spans columns 20 to 220 and rows 0 to 195. */
  lemma ExampleWindow(n: nat)
    ensures SearchWindow(Quantity(n, Box(100, 200, 40, 20)), 1000) == Window(20, 0, 220, 195)
  {
  }

  /** The part number of an entry follows the selection rule over the
      candidates its crop yields, and is absent when the window is
      degenerate. */
  lemma AssignedFollowsRule(q: Quantity, page: Image, engine: Box -> Pass -> seq<RawRow>)
    ensures var win := SearchWindow(q, page.width);
      var a := AssignedFor(q, page, engine);
      (Degenerate(win) ==> Reading(a) == None) &&
      (!Degenerate(win) ==> BestChoice(Reading(a), CropCandidates(CropImage(win, page), engine(CropBox(win))))) &&
      (a.partnum.Some? ==> IsCandidateText(a.partnum.value) && a.partnumConf.value >= MIN_CONF_ID)
  {
    var win := SearchWindow(q, page.width);
    if !Degenerate(win) {
      var cs := CropCandidates(CropImage(win, page), engine(CropBox(win)));
      FirstMaxIsBestChoice(cs);
      assert Reading(AssignedFor(q, page, engine)) == FirstMax(cs);
    }
  }

  /** The body of the loop for one marker: the window arithmetic as the
      source writes it, then the crop's best identifier unless the window
      is degenerate. */
  method AssignOne(q: Quantity, page: Image, engine: Box -> Pass -> seq<RawRow>) returns (entry: Assigned)
    ensures entry == AssignedFor(q, page, engine)
  {
    var x, y, w := q.box.x, q.box.y, q.box.w;
    var pad := Pad(w);
    var top := 0;
    var bottom := Max(0, y - GAP);
    var left := Max(0, TruncHalf(2 * x + w - 2 * pad));
    var right := Min(page.width, TruncHalf(2 * x + w + 2 * pad));
    var win := Window(left, top, right, bottom);
    assert win == SearchWindow(q, page.width);
    var best: Option<Candidate>;
    var cropBox: Box;
    if bottom <= top || right <= left {
      best := None;
      cropBox := Box(left, top, Max(0, right - left), Max(0, bottom - top));
      assert Degenerate(win) && cropBox == CropBox(win);
    } else {
      cropBox := Box(left, top, right - left, bottom - top);
      assert !Degenerate(win) && cropBox == CropBox(win);
      best := PartnumFromCrop(CropImage(win, page), engine(cropBox));
    }
    assert best == if Degenerate(win) then None else FirstMax(CropCandidates(CropImage(win, page), engine(CropBox(win))));
    entry := Assigned(q.qty, q.box, cropBox,
                      if best.Some? then Some(best.value.text) else None,
                      if best.Some? then Some(best.value.conf) else None);
  }

  /** The loop over the markers: one entry per marker, in order. */
  method AssignAll(quantities: seq<Quantity>, page: Image, engine: Box -> Pass -> seq<RawRow>) returns (results: seq<Assigned>)
    ensures results == Assignments(quantities, page, engine)
  {
    results := [];
    for i := 0 to |quantities|
      invariant results == Assignments(quantities[..i], page, engine)
    {
      var entry := AssignOne(quantities[i], page, engine);
      AssignmentsStep(quantities, i, page, engine);
      results := results + [entry];
    }
    assert quantities[..|quantities|] == quantities;
  }

  /** `assign_partnums_by_quantity`: extract the markers, then one entry
      per marker, in the markers' left-to-right order. */
  method AssignPartnums(page: Image, pageOcr: seq<RawRow>, engine: Box -> Pass -> seq<RawRow>) returns (results: seq<Assigned>)
    ensures results == Assignments(QuantitiesOf(page, pageOcr), page, engine)
    ensures |results| == |QuantitiesOf(page, pageOcr)|
    ensures forall i, j :: 0 <= i < j < |results| ==>
      2 * results[i].qtyBox.x + results[i].qtyBox.w <= 2 * results[j].qtyBox.x + results[j].qtyBox.w
    ensures forall i, j :: 0 <= i < j < |results| ==>
      (results[i].qtyBox.x / CELL, results[i].qtyBox.y / CELL) != (results[j].qtyBox.x / CELL, results[j].qtyBox.y / CELL)
  {
    var quantities := ExtractQuantities(page, pageOcr);
    results := AssignAll(quantities, page, engine);
    assert forall i :: 0 <= i < |results| ==> results[i].qtyBox == quantities[i].box;
  }
}

=== FILE: display.dfy ===
/** The API entry point (`analyze_image_for_api`): every assigned entry is
    turned into an output record holding its part id, its quantity and
    the page region of its crop box, with the marker outline that would be
    drawn on that region. Entries whose region is empty are skipped. */
module Display {
  import opened Wrappers
  import opened Geometry
  import opened Ocr
  import opened Quantities
  import opened PartNumbers
  import opened Assignment
  import opened SingleCrop

  /** A rectangle by its corners: columns [x1, x2), rows [y1, y2). */
  datatype Rect = Rect(x1: int, y1: int, x2: int, y2: int)

  predicate InRect(r: Rect, px: int, py: int) {
    r.x1 <= px < r.x2 && r.y1 <= py < r.y2
  }

  predicate InPage(page: Image, px: int, py: int) {
    0 <= px < page.width && 0 <= py < page.height
  }

  /** One output record: the part id, the quantity, the page region shown,
      and the marker outline drawn on it, in the region's coordinates,
      when the marker overlaps the region. */
  datatype Record = Record(partId: string, quantity: nat, region: Rect, marker: Option<Rect>)

  /** `a["partnum"] if a["partnum"] else "UNKNOWN"`: an absent or empty
      part number reads as "UNKNOWN". */
  function PartIdOf(a: Assigned): string {
    if a.partnum.Some? && a.partnum.value != [] then a.partnum.value else UNKNOWN
  }

  /** The record for one entry, or None when its crop of the page is
      empty. The crop box is clipped to the page, cut out with numpy's
      slice rules, and the marker box is intersected with it. */
  function Displayed(a: Assigned, page: Image): (r: Option<Record>)
    ensures r.Some? ==> r.value.partId == PartIdOf(a) && r.value.quantity == a.qty
    ensures r.Some? ==> var g := r.value.region;
      0 <= g.x1 < g.x2 <= page.width && 0 <= g.y1 < g.y2 <= page.height
    ensures r.Some? && r.value.marker.Some? ==> var g := r.value.region; var m := r.value.marker.value;
      0 <= m.x1 < m.x2 <= g.x2 - g.x1 && 0 <= m.y1 < m.y2 <= g.y2 - g.y1
  {
    var b := a.cropBox;
    var x2 := Min(page.width, b.x + b.w);
    var y2 := Min(page.height, b.y + b.h);
    var x1 := Max(0, b.x);
    var y1 := Max(0, b.y);
    var rows := SliceLength(y1, y2, page.height);
    var cols := SliceLength(x1, x2, page.width);
    if rows == 0 || cols == 0 then None
    else
      var q := a.qtyBox;
      var ix1 := Max(q.x, x1);
      var iy1 := Max(q.y, y1);
      var ix2 := Min(q.x + q.w, x2);
      var iy2 := Min(q.y + q.h, y2);
      var marker := if ix2 > ix1 && iy2 > iy1 then Some(Rect(ix1 - x1, iy1 - y1, ix2 - x1, iy2 - y1)) else None;
      Some(Record(PartIdOf(a), a.qty, Rect(x1, y1, x1 + cols, y1 + rows), marker))
  }

  /** For a crop box with a non-negative corner and sizes, the region shown
      is exactly the part of the box inside the page, the entry is skipped
      exactly when that part is empty, and the marker outline, read as a
      half-open rectangle, covers exactly the marker pixels inside the
      region. */
  lemma DisplayedIsClippedBox(a: Assigned, page: Image)
    requires a.cropBox.x >= 0 && a.cropBox.y >= 0 && a.cropBox.w >= 0 && a.cropBox.h >= 0
    ensures Displayed(a, page).None? <==>
      !exists px, py :: InBox(a.cropBox, px, py) && InPage(page, px, py)
    ensures Displayed(a, page).Some? ==> var r := Displayed(a, page).value;
      forall px, py :: InRect(r.region, px, py) <==> InBox(a.cropBox, px, py) && InPage(page, px, py)
    ensures Displayed(a, page).Some? ==> var r := Displayed(a, page).value;
      forall px, py ::
        (r.marker.Some? && InRect(r.marker.value, px - r.region.x1, py - r.region.y1)) <==>
        InBox(a.qtyBox, px, py) && InRect(r.region, px, py)
  {
    var b := a.cropBox;
    var x1, y1 := b.x, b.y;
    var x2 := Min(page.width, b.x + b.w);
    var y2 := Min(page.height, b.y + b.h);
    var rows := SliceLength(y1, y2, page.height);
    var cols := SliceLength(x1, x2, page.width);
    if rows == 0 || cols == 0 {
      assert forall px, py :: !(InBox(b, px, py) && InPage(page, px, py));
    } else {
      assert InBox(b, x1, y1) && InPage(page, x1, y1);
    }
  }

  /** The region shown for an entry is the region its part number was read
      from. */
  lemma DisplayedRegionIsSearchCrop(q: Quantity, page: Image, engine: Box -> Pass -> seq<RawRow>)
    ensures var r := Displayed(AssignedFor(q, page, engine), page);
      var crop := CropImage(SearchWindow(q, page.width), page);
      r.Some? ==> r.value.region.x2 - r.value.region.x1 == crop.width && r.value.region.y2 - r.value.region.y1 == crop.height
  {
  }

  /** An entry is skipped exactly when its search window is degenerate. */
  lemma SkippedIffDegenerate(q: Quantity, page: Image, engine: Box -> Pass -> seq<RawRow>)
    requires page.height > 0
    ensures Displayed(AssignedFor(q, page, engine), page).None? <==> Degenerate(SearchWindow(q, page.width))
  {
  }

  /** The marker outline is never drawn: the crop ends 5 pixels above the
      marker's top edge, so the two never overlap. */
  lemma MarkerNeverDrawn(q: Quantity, page: Image, engine: Box -> Pass -> seq<RawRow>)
    ensures var r := Displayed(AssignedFor(q, page, engine), page);
      r.Some? ==> r.value.marker == None
  {
    var a := AssignedFor(q, page, engine);
    assert a.cropBox.h == 0 || a.cropBox.h + GAP == q.box.y;
  }

  /** A read identifier that happens to be "UNKNOWN", or an empty one,
      cannot be told apart from no identifier. */
  lemma PartIdUnknown(a: Assigned)
    ensures PartIdOf(a) == UNKNOWN <==> a.partnum == None || a.partnum == Some(UNKNOWN) || a.partnum == Some([])
    ensures a.partnum.Some? && a.partnum.value != [] ==> PartIdOf(a) == a.partnum.value
  {
  }

  /** Reference definition of the output: the records of the entries that
      are shown, in entry order. */
  function Outputs(entries: seq<Assigned>, page: Image): (out: seq<Record>)
    ensures |out| <= |entries|
  {
    if entries == [] then []
    else
      var r := Displayed(entries[|entries| - 1], page);
      Outputs(entries[..|entries| - 1], page) + (if r.Some? then [r.value] else [])
  }

  /** A record is output exactly when it is the record of some entry. */
  lemma OutputsMembers(entries: seq<Assigned>, page: Image)
    ensures forall r :: r in Outputs(entries, page) <==> exists i :: 0 <= i < |entries| && Displayed(entries[i], page) == Some(r)
  {
    forall r | r in Outputs(entries, page)
      ensures exists i :: 0 <= i < |entries| && Displayed(entries[i], page) == Some(r)
    {
      OutputFromSomeEntry(entries, page, r);
    }
    forall i | 0 <= i < |entries| && Displayed(entries[i], page).Some? {
      EntryIsOutput(entries, page, i);
    }
  }

  lemma {:induction false} OutputFromSomeEntry(entries: seq<Assigned>, page: Image, r: Record)
    requires r in Outputs(entries, page)
    ensures exists i :: 0 <= i < |entries| && Displayed(entries[i], page) == Some(r)
  {
    var n := |entries| - 1;
    var init := entries[..n];
    var d := Displayed(entries[n], page);
    assert Outputs(entries, page) == Outputs(init, page) + (if d.Some? then [d.value] else []);
    if r in Outputs(init, page) {
      OutputFromSomeEntry(init, page, r);
      var i :| 0 <= i < |init| && Displayed(init[i], page) == Some(r);
      assert entries[i] == init[i];
    } else {
      assert d == Some(r);
    }
  }

  lemma {:induction false} EntryIsOutput(entries: seq<Assigned>, page: Image, i: int)
    requires 0 <= i < |entries| && Displayed(entries[i], page).Some?
    ensures Displayed(entries[i], page).value in Outputs(entries, page)
  {
    var n := |entries| - 1;
    var init := entries[..n];
    var d := Displayed(entries[n], page);
    assert Outputs(entries, page) == Outputs(init, page) + (if d.Some? then [d.value] else []);
    if i < n {
      assert init[i] == entries[i];
      EntryIsOutput(init, page, i);
    }
  }

  lemma OutputsStep(entries: seq<Assigned>, i: int, page: Image)
    requires 0 <= i < |entries|
    ensures var r := Displayed(entries[i], page);
      Outputs(entries[..i + 1], page) == Outputs(entries[..i], page) + (if r.Some? then [r.value] else [])
  {
    assert entries[..i + 1][..i] == entries[..i];
  }

  /** The records of assigned entries never carry a marker outline. */
  lemma {:induction false} OutputsWithoutMarker(qs: seq<Quantity>, page: Image, engine: Box -> Pass -> seq<RawRow>)
    ensures forall r :: r in Outputs(Assignments(qs, page, engine), page) ==> r.marker == None
  {
    var entries := Assignments(qs, page, engine);
    OutputsMembers(entries, page);
    forall r | r in Outputs(entries, page) ensures r.marker == None {
      var i :| 0 <= i < |entries| && Displayed(entries[i], page) == Some(r);
      MarkerNeverDrawn(qs[i], page, engine);
    }
  }

  /** The body of the loop for one entry: clip its crop box to the page;
      when the crop is empty there is no record, otherwise intersect the
      marker box with the crop. */
  method DisplayOne(a: Assigned, page: Image) returns (r: Option<Record>)
    ensures r == Displayed(a, page)
  {
    var H, W := page.height, page.width;
    var pid := if a.partnum.Some? && a.partnum.value != [] then a.partnum.value else UNKNOWN;
    var qty := a.qty;
    var cx, cy, cw, ch := a.cropBox.x, a.cropBox.y, a.cropBox.w, a.cropBox.h;
    var cx2, cy2 := Min(W, cx + cw), Min(H, cy + ch);
    cx, cy := Max(0, cx), Max(0, cy);
    var rows := SliceLength(cy, cy2, H);
    var cols := SliceLength(cx, cx2, W);
    if rows == 0 || cols == 0 {
      return None;
    }
    var qx, qy, qw, qh := a.qtyBox.x, a.qtyBox.y, a.qtyBox.w, a.qtyBox.h;
    var ix1, iy1 := Max(qx, cx), Max(qy, cy);
    var ix2, iy2 := Min(qx + qw, cx2), Min(qy + qh, cy2);
    var marker: Option<Rect> := None;
    if ix2 > ix1 && iy2 > iy1 {
      marker := Some(Rect(ix1 - cx, iy1 - cy, ix2 - cx, iy2 - cy));
    }
    r := Some(Record(pid, qty, Rect(cx, cy, cx + cols, cy + rows), marker));
  }

  /** The loop of `analyze_image_for_api`: the record of every entry
      whose crop is not empty, in entry order. */
  method RecordsOf(entries: seq<Assigned>, page: Image) returns (output: seq<Record>)
    ensures output == Outputs(entries, page)
  {
    output := [];
    for i := 0 to |entries|
      invariant output == Outputs(entries[..i], page)
    {
      OutputsStep(entries, i, page);
      var r := DisplayOne(entries[i], page);
      if r.Some? {
        output := output + [r.value];
      }
    }
    assert entries[..|entries|] == entries;
  }

  /** `analyze_image_for_api`: assign part numbers, then emit the record
      of every entry whose crop is not empty, in entry order. */
  method AnalyzeImage(page: Image, pageOcr: seq<RawRow>, engine: Box -> Pass -> seq<RawRow>) returns (output: seq<Record>)
    ensures output == Outputs(Assignments(QuantitiesOf(page, pageOcr), page, engine), page)
    ensures |output| <= |QuantitiesOf(page, pageOcr)|
    ensures forall r :: r in output ==> r.marker == None
  {
    var entries := AssignPartnums(page, pageOcr, engine);
    output := RecordsOf(entries, page);
    OutputsWithoutMarker(QuantitiesOf(page, pageOcr), page, engine);
  }
}

=== FILE: geometry.dfy ===
/** Integer geometry shared by the recognition steps: boxes as the OCR
    engine reports them, image dimensions, and the integer forms of the
    few Python numeric operations the window and crop arithmetic uses. */
module Geometry {

  /** A box as (left, top, width, height), in pixels. */
  datatype Box = Box(x: int, y: int, w: int, h: int)

  /** Only the dimensions of an image matter to the model. */
  datatype Image = Image(height: nat, width: nat)

  /** A numpy array is empty (`size == 0`) when one of its dimensions is 0. */
  predicate Empty(img: Image) {
    img.height == 0 || img.width == 0
  }

  /** Pixel (px, py) lies inside box b. */
  predicate InBox(b: Box, px: int, py: int) {
    b.x <= px < b.x + b.w && b.y <= py < b.y + b.h
  }

  function Max(a: int, b: int): int { if a >= b then a else b }

  function Min(a: int, b: int): int { if a <= b then a else b }

  /** Python's `int(n / 2)`: true division, then truncation toward zero. */
  function TruncHalf(n: int): (r: int)
    ensures n >= 0 ==> 2 * r <= n < 2 * r + 2
    ensures n < 0 ==> 2 * r - 2 < n <= 2 * r
  {
    if n >= 0 then n / 2 else -((-n) / 2)
  }

  /** Where a Python slice bound `i` lands in a dimension of length n:
      a negative bound counts from the end, and both are clamped to [0, n]. */
  function SliceIndex(i: int, n: nat): (r: int)
    ensures 0 <= r <= n
    ensures 0 <= i <= n ==> r == i
  {
    if i < 0 then Max(0, i + n) else Min(i, n)
  }

  /** The length of the numpy slice `[start:stop]` of a dimension of length n. */
  function SliceLength(start: int, stop: int, n: nat): (len: nat)
    ensures 0 <= start && 0 <= stop ==> len == Max(0, Min(stop, n) - Min(start, n))
  {
    var d := SliceIndex(stop, n) - SliceIndex(start, n);
    if d > 0 then d else 0
  }
}

=== FILE: ocr_table.dfy ===
/** The engine's word table as the recognition steps read it: the rows the
    engine reports for one image, filtered as `ocr_df` filters its
    DataFrame. */
module Ocr {
  import opened Wrappers
  import opened Geometry
  import opened Text

  /** Confidence floor for the quantity pass over the whole page. */
  const MIN_CONF_QTY: real := 40.0
  /** Confidence floor for the identifier passes over a crop. */
  const MIN_CONF_ID: real := 40.0

  /** One row of the engine's table as the DataFrame holds it. `text` is
      None for a missing (NaN) cell and otherwise the cell rendered by
      `astype(str)`; `conf` is None when the cell is not numeric. */
  datatype RawRow = RawRow(text: Option<string>, conf: Option<real>, box: Box)

  /** A row that survived the filter. */
  datatype Row = Row(text: string, conf: real, box: Box)

  /** `pd.to_numeric(conf, errors="coerce").fillna(-1)` */
  function Confidence(raw: RawRow): real {
    if raw.conf.Some? then raw.conf.value else -1.0
  }

  /** A row survives when its text is present, is not blank once stripped,
      and its confidence reaches the floor. */
  predicate Admits(raw: RawRow, minConf: real) {
    raw.text.Some? && Strip(raw.text.value) != [] && Confidence(raw) >= minConf
  }

  function Cleaned(raw: RawRow): Row
    requires raw.text.Some?
  {
    Row(Strip(raw.text.value), Confidence(raw), raw.box)
  }

  /** The filter of `ocr_df`, in the engine's row order. */
  function Admitted(rows: seq<RawRow>, minConf: real): (table: seq<Row>)
    ensures |table| <= |rows|
    ensures forall r :: r in table ==> r.text != [] && Trimmed(r.text) && r.conf >= minConf
  {
    if rows == [] then []
    else
      var last := rows[|rows| - 1];
      Admitted(rows[..|rows| - 1], minConf) + (if Admits(last, minConf) then [Cleaned(last)] else [])
  }

  /** A row is in the table exactly when it comes from an engine row the
      filter admits. */
  lemma {:induction false} AdmittedExactly(rows: seq<RawRow>, minConf: real)
    ensures forall i :: 0 <= i < |rows| && Admits(rows[i], minConf) ==> Cleaned(rows[i]) in Admitted(rows, minConf)
    ensures forall r :: r in Admitted(rows, minConf) ==>
              exists i :: 0 <= i < |rows| && Admits(rows[i], minConf) && Cleaned(rows[i]) == r
  {
    if rows != [] {
      var init := rows[..|rows| - 1];
      AdmittedExactly(init, minConf);
      assert forall i :: 0 <= i < |init| ==> init[i] == rows[i];
      forall r | r in Admitted(rows, minConf)
        ensures exists i :: 0 <= i < |rows| && Admits(rows[i], minConf) && Cleaned(rows[i]) == r
      {
        if r in Admitted(init, minConf) {
          var i :| 0 <= i < |init| && Admits(init[i], minConf) && Cleaned(init[i]) == r;
          assert rows[i] == init[i];
        } else {
          assert Cleaned(rows[|rows| - 1]) == r;
        }
      }
    }
  }

  /** `ocr_df(img, ...)`: no rows for a missing or empty image, otherwise
      the engine's rows for that image, filtered. */
  function OcrTable(img: Image, engineRows: seq<RawRow>, minConf: real): (table: seq<Row>)
    ensures Empty(img) ==> table == []
  {
    if Empty(img) then [] else Admitted(engineRows, minConf)
  }
}

=== FILE: part_numbers.dfy ===
/** The multi-pass identifier recognizer (`ocr_partnum_from_crop`): four
    recognition passes over one search crop, in a fixed order, keeping the
    highest-confidence alphanumeric candidate; the earliest wins a tie. */
module PartNumbers {
  import opened Wrappers
  import opened Geometry
  import opened Text
  import opened Ocr

  /** Crops narrower or shorter than this are not recognised. */
  const MIN_SIDE: int := 20
  /** Upscaling factor applied before each identifier pass. */
  const UPSCALE: nat := 3

  datatype Rotation = Clockwise | CounterClockwise

  /** One recognition pass: a quarter turn and a polarity. */
  datatype Pass = Pass(rotation: Rotation, inverted: bool)

  /** The outer loop turns clockwise first, the inner loop reads the
      normal polarity first. */
  const ROTATIONS: seq<Rotation> := [Clockwise, CounterClockwise]
  const POLARITIES: seq<bool> := [false, true]

  /** The four passes in the order the loops run them. */
  const PASSES: seq<Pass> := [Pass(Clockwise, false), Pass(Clockwise, true),
                              Pass(CounterClockwise, false), Pass(CounterClockwise, true)]

  /** Pass 2r+v is the v-th polarity of the r-th rotation. */
  lemma PassOrder(r: nat, v: nat)
    requires r < |ROTATIONS| && v < |POLARITIES|
    ensures 2 * r + v < |PASSES| && PASSES[2 * r + v] == Pass(ROTATIONS[r], POLARITIES[v])
  {
  }

  /** A candidate identifier with the confidence of its row. */
  datatype Candidate = Candidate(text: string, conf: real)

  /** What a pass hands the engine: the crop turned a quarter (height and
      width swap) and upscaled by 3. Neither step can empty the crop. */
  function PassImage(crop: Image): (img: Image)
    ensures Empty(img) <==> Empty(crop)
  {
    Image(UPSCALE * crop.width, UPSCALE * crop.height)
  }

  /** Token normalisation: strip, drop every space, then drop one trailing
      ".0" (the DataFrame's rendering of a numeric cell). */
  function Normalise(text: string): (t: string)
    ensures forall i :: 0 <= i < |t| ==> t[i] != ' '
  {
    var u := RemoveSpaces(Strip(text));
    if EndsWith(u, ".0") then u[..|u| - 2] else u
  }

  predicate IsIdChar(c: char) { IsUpper(c) || IsDigit(c) }

  predicate AllIdChars(s: string) { forall i :: 0 <= i < |s| ==> IsIdChar(s[i]) }

  /** `re.match(r"^[A-Z0-9]+$", t)`. In Python `$` also matches just
      before a final line feed, so one trailing "\n" after the identifier
      characters is accepted as well. */
  predicate MatchesIdPattern(t: string) {
    (|t| >= 1 && AllIdChars(t)) || (|t| >= 2 && t[|t| - 1] == '\n' && AllIdChars(t[..|t| - 1]))
  }

  /** `len(t) >= 1 and re.match(r"^[A-Z0-9]+$", t)` */
  predicate IsCandidateText(t: string) {
    |t| >= 1 && MatchesIdPattern(t)
  }

  /** A text with no line feed is a candidate exactly when it is one or
      more of A-Z and 0-9. */
  lemma CandidateWithoutLineFeed(t: string)
    requires forall i :: 0 <= i < |t| ==> t[i] != '\n'
    ensures IsCandidateText(t) <==> |t| >= 1 && AllIdChars(t)
  {
  }

  /** A numeric cell written "<n>.0" normalises back to the numeral of n,
      which is a candidate. */
  lemma NumericCellNormalises(n: nat)
    ensures Normalise(Numeral(n) + ".0") == Numeral(n)
    ensures IsCandidateText(Numeral(n))
  {
    NumeralValue(n);
    var d := Numeral(n);
    var s := d + ".0";
    assert s[0] == d[0] && s[|s| - 1] == '0';
    StripTrimmed(s);
    assert forall i :: 0 <= i < |s| ==> s[i] != ' ' by {
      forall i | 0 <= i < |s| ensures s[i] != ' ' {
        if i < |d| {
          assert s[i] == d[i];
        }
      }
    }
    NoSpaceUnchanged(s);
    assert s[|s| - 2..] == ".0";
    assert s[..|s| - 2] == d;
    assert Normalise(s) == d;
    assert AllIdChars(d);
  }

  lemma {:induction false} NoSpaceUnchanged(s: string)
    requires forall i :: 0 <= i < |s| ==> s[i] != ' '
    ensures RemoveSpaces(s) == s
  {
    if s != [] {
      NoSpaceUnchanged(s[..|s| - 1]);
      assert s[..|s| - 1] + [s[|s| - 1]] == s;
    }
  }

  /** The candidates one table yields, in row order. */
  function CandidatesOf(table: seq<Row>): (cs: seq<Candidate>)
    requires forall r :: r in table ==> r.conf >= MIN_CONF_ID
    ensures forall c :: c in cs ==> IsCandidateText(c.text) && c.conf >= MIN_CONF_ID
  {
    if table == [] then []
    else
      var row := table[|table| - 1];
      var t := Normalise(row.text);
      CandidatesOf(table[..|table| - 1]) + (if IsCandidateText(t) then [Candidate(t, row.conf)] else [])
  }

  /** A row yields candidate c: its normalised text is an identifier, and
      c is that text with the row's confidence. */
  predicate RowYields(row: Row, c: Candidate) {
    var t := Normalise(row.text);
    IsCandidateText(t) && c == Candidate(t, row.conf)
  }

  /** The candidates of a table are exactly what its rows yield. */
  lemma CandidatesOfExactly(table: seq<Row>)
    requires forall r :: r in table ==> r.conf >= MIN_CONF_ID
    ensures forall c :: c in CandidatesOf(table) <==> exists i :: 0 <= i < |table| && RowYields(table[i], c)
  {
    CandidatesFromRows(table);
    RowsGiveCandidates(table);
  }

  /** Every candidate of a table is yielded by one of its rows. */
  lemma {:induction false} CandidatesFromRows(table: seq<Row>)
    requires forall r :: r in table ==> r.conf >= MIN_CONF_ID
    ensures forall c :: c in CandidatesOf(table) ==> exists i :: 0 <= i < |table| && RowYields(table[i], c)
  {
    if table != [] {
      var n := |table| - 1;
      var init := table[..n];
      var row := table[n];
      var t := Normalise(row.text);
      var tail := if IsCandidateText(t) then [Candidate(t, row.conf)] else [];
      assert forall j :: 0 <= j < n ==> init[j] == table[j];
      assert CandidatesOf(table) == CandidatesOf(init) + tail;
      CandidatesFromRows(init);
      forall c | c in CandidatesOf(table) ensures exists i :: 0 <= i < |table| && RowYields(table[i], c) {
        if c in CandidatesOf(init) {
          var i :| 0 <= i < |init| && RowYields(init[i], c);
          assert RowYields(table[i], c);
        } else {
          assert RowYields(table[n], c);
        }
      }
    }
  }

  /** Every row whose normalised text is an identifier yields a candidate
      of the table. */
  lemma {:induction false} RowsGiveCandidates(table: seq<Row>)
    requires forall r :: r in table ==> r.conf >= MIN_CONF_ID
    ensures forall i, c :: 0 <= i < |table| && RowYields(table[i], c) ==> c in CandidatesOf(table)
  {
    if table != [] {
      var n := |table| - 1;
      var init := table[..n];
      var row := table[n];
      var t := Normalise(row.text);
      var tail := if IsCandidateText(t) then [Candidate(t, row.conf)] else [];
      assert forall j :: 0 <= j < n ==> init[j] == table[j];
      assert CandidatesOf(table) == CandidatesOf(init) + tail;
      RowsGiveCandidates(init);
      forall i, c | 0 <= i < |table| && RowYields(table[i], c) ensures c in CandidatesOf(table) {
        if i < n {
          assert init[i] == table[i];
          assert c in CandidatesOf(init);
        } else {
          assert i == n && table[i] == row;
          assert c == Candidate(t, row.conf) && IsCandidateText(t);
        }
      }
    }
  }

  /** The candidates of the first n passes, pass by pass. */
  function PassCandidates(crop: Image, ocr: Pass -> seq<RawRow>, n: nat): (cs: seq<Candidate>)
    requires n <= 4
    ensures forall c :: c in cs ==> IsCandidateText(c.text) && c.conf >= MIN_CONF_ID
  {
    if n == 0 then []
    else PassCandidates(crop, ocr, n - 1) + CandidatesOf(OcrTable(PassImage(crop), ocr(PASSES[n - 1]), MIN_CONF_ID))
  }

  /** Every candidate the crop yields, in pass order; none for an empty
      crop or one with a side below 20 pixels. */
  function CropCandidates(crop: Image, ocr: Pass -> seq<RawRow>): (cs: seq<Candidate>)
    ensures forall c :: c in cs ==> IsCandidateText(c.text) && c.conf >= MIN_CONF_ID
    ensures crop.height < MIN_SIDE || crop.width < MIN_SIDE ==> cs == []
  {
    if Empty(crop) || crop.height < MIN_SIDE || crop.width < MIN_SIDE then []
    else PassCandidates(crop, ocr, 4)
  }

  /** cs[i] is the first candidate of highest confidence: every earlier
      one is strictly lower, no later one is higher. */
  ghost predicate FirstBestAt(cs: seq<Candidate>, i: int)
    requires 0 <= i < |cs|
  {
    (forall j :: 0 <= j < i ==> cs[j].conf < cs[i].conf) &&
    (forall j :: i < j < |cs| ==> cs[j].conf <= cs[i].conf)
  }

  /** The selection rule, stated as a property: no result exactly when
      there is no candidate; otherwise the result is the first candidate
      of highest confidence. */
  ghost predicate BestChoice(best: Option<Candidate>, cs: seq<Candidate>) {
    (best.None? <==> cs == []) &&
    (best.Some? ==> exists i :: 0 <= i < |cs| && cs[i] == best.value && FirstBestAt(cs, i))
  }

  /** The running choice: a candidate replaces the best so far only when
      its confidence is strictly higher. */
  function FirstMax(cs: seq<Candidate>): (best: Option<Candidate>)
    ensures best.None? <==> cs == []
  {
    if cs == [] then None
    else
      var best := FirstMax(cs[..|cs| - 1]);
      var c := cs[|cs| - 1];
      if best.None? || c.conf > best.value.conf then Some(c) else best
  }

  /** The running choice ends on the first candidate of highest
      confidence. */
  lemma {:induction false} FirstMaxAt(cs: seq<Candidate>) returns (i: int)
    requires cs != []
    ensures 0 <= i < |cs| && FirstMax(cs) == Some(cs[i]) && FirstBestAt(cs, i)
  {
    var n := |cs| - 1;
    var init := cs[..n];
    var c := cs[n];
    if init == [] {
      i := 0;
    } else {
      var k := FirstMaxAt(init);
      var best := init[k];
      assert forall j :: 0 <= j < n ==> cs[j] == init[j];
      assert forall j :: 0 <= j < n ==> cs[j].conf <= best.conf;
      if c.conf > best.conf {
        i := n;
      } else {
        i := k;
      }
    }
  }

  /** The running choice meets the selection rule. */
  lemma FirstMaxIsBestChoice(cs: seq<Candidate>)
    ensures BestChoice(FirstMax(cs), cs)
  {
    if cs != [] {
      var i := FirstMaxAt(cs);
    }
  }

  /** The selection rule picks one result at most. */
  lemma BestChoiceUnique(a: Option<Candidate>, b: Option<Candidate>, cs: seq<Candidate>)
    requires BestChoice(a, cs) && BestChoice(b, cs)
    ensures a == b
  {
    if a.Some? {
      var i :| 0 <= i < |cs| && cs[i] == a.value && FirstBestAt(cs, i);
      var k :| 0 <= k < |cs| && cs[k] == b.value && FirstBestAt(cs, k);
    }
  }

  lemma CandidatesStep(table: seq<Row>, k: int)
    requires 0 <= k < |table|
    requires forall r :: r in table ==> r.conf >= MIN_CONF_ID
    ensures var t := Normalise(table[k].text);
      CandidatesOf(table[..k + 1]) == CandidatesOf(table[..k]) +
        (if IsCandidateText(t) then [Candidate(t, table[k].conf)] else [])
  {
    assert table[..k + 1][..k] == table[..k];
  }

  lemma FirstMaxStep(cs: seq<Candidate>, c: Candidate)
    ensures FirstMax(cs + [c]) == (if FirstMax(cs).None? || c.conf > FirstMax(cs).value.conf then Some(c) else FirstMax(cs))
  {
    assert (cs + [c])[..|cs|] == cs;
  }

  /** One row of a pass's scan, on the running choice: a row whose
      normalised text is a candidate replaces the best so far only when
      its confidence is strictly higher. */
  lemma ScanTableStep(table: seq<Row>, k: int, done: seq<Candidate>)
    requires 0 <= k < |table|
    requires forall r :: r in table ==> r.conf >= MIN_CONF_ID
    ensures var t := Normalise(table[k].text);
      var before := FirstMax(done + CandidatesOf(table[..k]));
      FirstMax(done + CandidatesOf(table[..k + 1])) ==
        if IsCandidateText(t) && (before.None? || table[k].conf > before.value.conf) then Some(Candidate(t, table[k].conf)) else before
  {
    CandidatesStep(table, k);
    var t := Normalise(table[k].text);
    var c := Candidate(t, table[k].conf);
    FirstMaxAppend(done, CandidatesOf(table[..k]), if IsCandidateText(t) then [c] else [], c);
  }

  /** Appending no candidate keeps the running choice, and appending one
      is a single step of it. */
  lemma FirstMaxAppend(done: seq<Candidate>, xs: seq<Candidate>, tail: seq<Candidate>, c: Candidate)
    requires tail == [] || tail == [c]
    ensures var before := FirstMax(done + xs);
      FirstMax(done + (xs + tail)) ==
        if tail == [c] && (before.None? || c.conf > before.value.conf) then Some(c) else before
  {
    assert done + (xs + tail) == (done + xs) + tail;
    if tail == [c] {
      FirstMaxStep(done + xs, c);
    } else {
      assert (done + xs) + tail == done + xs;
    }
  }

  /** One pass's scan of its table: each row's normalised text that is a
      candidate replaces the best so far only when its confidence is
      strictly higher. */
  method ScanTable(table: seq<Row>, best0: Option<Candidate>, ghost done: seq<Candidate>) returns (best: Option<Candidate>)
    requires forall r :: r in table ==> r.conf >= MIN_CONF_ID
    requires best0 == FirstMax(done)
    ensures best == FirstMax(done + CandidatesOf(table))
  {
    best := best0;
    assert done + CandidatesOf(table[..0]) == done;
    for k := 0 to |table|
      invariant best == FirstMax(done + CandidatesOf(table[..k]))
    {
      ScanTableStep(table, k, done);
      var t := Normalise(table[k].text);
      if |t| >= 1 && MatchesIdPattern(t) {
        var conf := table[k].conf;
        if best.None? || conf > best.value.conf {
          best := Some(Candidate(t, conf));
        }
      }
    }
    assert table[..|table|] == table;
  }

  /** One pass of the crop: recognise the rotated, recoloured crop and
      scan its table, carrying the best candidate over from earlier
      passes. */
  method ScanPass(crop: Image, ocr: Pass -> seq<RawRow>, pass: Pass, n: nat, best0: Option<Candidate>) returns (best: Option<Candidate>)
    requires n < 4 && pass == PASSES[n]
    requires best0 == FirstMax(PassCandidates(crop, ocr, n))
    ensures best == FirstMax(PassCandidates(crop, ocr, n + 1))
  {
    var table := OcrTable(PassImage(crop), ocr(pass), MIN_CONF_ID);
    best := ScanTable(table, best0, PassCandidates(crop, ocr, n));
  }

  /** The four passes in order (clockwise before counter-clockwise,
      normal before inverted), each reading its rows in order and keeping
      a candidate only when its confidence beats the best so far. */
  method ScanPasses(crop: Image, ocr: Pass -> seq<RawRow>) returns (best: Option<Candidate>)
    ensures best == FirstMax(PassCandidates(crop, ocr, 4))
  {
    best := None;
    for r := 0 to |ROTATIONS|
      invariant best == FirstMax(PassCandidates(crop, ocr, 2 * r))
    {
      var rotation := ROTATIONS[r];
      for v := 0 to |POLARITIES|
        invariant best == FirstMax(PassCandidates(crop, ocr, 2 * r + v))
      {
        var pass := Pass(rotation, POLARITIES[v]);
        PassOrder(r, v);
        best := ScanPass(crop, ocr, pass, 2 * r + v, best);
      }
    }
  }

  /** `ocr_partnum_from_crop`: the size guards, then the four passes;
      the result is the first candidate of highest confidence. */
  method PartnumFromCrop(crop: Image, ocr: Pass -> seq<RawRow>) returns (best: Option<Candidate>)
    ensures best == FirstMax(CropCandidates(crop, ocr))
    ensures BestChoice(best, CropCandidates(crop, ocr))
    ensures crop.height < MIN_SIDE || crop.width < MIN_SIDE ==> best == None
    ensures best.Some? ==> IsCandidateText(best.value.text) && best.value.conf >= MIN_CONF_ID
  {
    if Empty(crop) {
      FirstMaxIsBestChoice([]);
      return None;
    }
    if crop.height < MIN_SIDE || crop.width < MIN_SIDE {
      FirstMaxIsBestChoice([]);
      return None;
    }
    best := ScanPasses(crop, ocr);
    assert CropCandidates(crop, ocr) == PassCandidates(crop, ocr, 4);
    FirstMaxIsBestChoice(CropCandidates(crop, ocr));
  }
}

=== FILE: quantities.dfy ===
/** The quantity detector (`extract_quantities`): reads "<digits>x" markers
    from the page's word table, keeps the first marker per 10-pixel grid
    cell, and orders the survivors left to right by horizontal centre. */
module Quantities {
  import opened Wrappers
  import opened Geometry
  import opened Text
  import opened Ocr

  /** Side of the grid cell used to merge duplicate detections. */
  const CELL: int := 10

  /** A detected marker: the quantity it denotes and its box on the page. */
  datatype Quantity = Quantity(qty: nat, box: Box)

  /** `re.fullmatch(r"\d+x", t)` */
  predicate IsMarkerText(t: string) {
    |t| >= 2 && t[|t| - 1] == 'x' && AllDigits(t[..|t| - 1])
  }

  /** One row read as a marker: its stripped, lower-cased text must be
      digits followed by `x`; the quantity is the text without its last
      character, read as an integer. */
  function ParseMarker(row: Row): (q: Option<Quantity>)
    ensures q.Some? ==> q.value.box == row.box
  {
    var t := Lower(Strip(row.text));
    if IsMarkerText(t) then Some(Quantity(DigitsValue(t[..|t| - 1]), row.box)) else None
  }

  /** Writing a quantity n as a marker "<n>x" or "<n>X" and reading it back
      gives n and the marker's box. */
  lemma MarkerRoundTrip(n: nat, marker: char, conf: real, box: Box)
    requires marker == 'x' || marker == 'X'
    ensures ParseMarker(Row(Numeral(n) + [marker], conf, box)) == Some(Quantity(n, box))
  {
    NumeralValue(n);
    ParseWrittenMarker(Numeral(n), marker, conf, box);
  }

  lemma ParseWrittenMarker(d: string, marker: char, conf: real, box: Box)
    requires |d| >= 1 && AllDigits(d)
    requires marker == 'x' || marker == 'X'
    ensures ParseMarker(Row(d + [marker], conf, box)) == Some(Quantity(DigitsValue(d), box))
  {
    var s := d + [marker];
    assert Strip(s) == s by { StripTrimmed(s); }
    LowerMarker(d, marker);
  }

  /** Only written markers parse: a row yields a marker only when its
      stripped text is digits followed by `x` or `X`, and the quantity is
      the value of those digits. */
  lemma ParseMarkerOnlyWritten(row: Row)
    ensures ParseMarker(row).Some? ==>
      exists d: string, m: char :: |d| >= 1 && AllDigits(d) && (m == 'x' || m == 'X') &&
        Strip(row.text) == d + [m] && ParseMarker(row).value.qty == DigitsValue(d)
  {
    var s := Strip(row.text);
    var t := Lower(s);
    if IsMarkerText(t) {
      var n := |s| - 1;
      var d := s[..n];
      var m := s[n];
      forall i | 0 <= i < n ensures d[i] == t[i] {
        assert t[i] == LowerChar(s[i]);
      }
      assert d == t[..n];
      assert t[n] == LowerChar(m);
      assert s == d + [m];
    }
  }

  lemma LowerMarker(d: string, marker: char)
    requires |d| >= 1 && AllDigits(d)
    requires marker == 'x' || marker == 'X'
    ensures var t := Lower(d + [marker]); IsMarkerText(t) && t[..|t| - 1] == d
  {
    var s := d + [marker];
    var t := Lower(s);
    forall i | 0 <= i < |d| ensures t[i] == d[i] {
      assert s[i] == d[i];
    }
    assert t[..|t| - 1] == d;
  }

  /** The rows that read as markers, in table order. */
  function Markers(table: seq<Row>): (qs: seq<Quantity>)
    ensures |qs| <= |table|
  {
    if table == [] then []
    else
      var q := ParseMarker(table[|table| - 1]);
      Markers(table[..|table| - 1]) + (if q.Some? then [q.value] else [])
  }

  /** Row `row` of the table reads as marker `q`. */
  predicate RowMarks(row: Row, q: Quantity)
  {
    ParseMarker(row) == Some(q)
  }

  /** A marker is read exactly when some row of the table parses to it. */
  lemma {:induction false} MarkersExactly(table: seq<Row>)
    ensures forall q :: q in Markers(table) <==> exists i :: 0 <= i < |table| && RowMarks(table[i], q)
  {
    MarkersFromRows(table);
    RowsGiveMarkers(table);
    forall i, q | 0 <= i < |table| && RowMarks(table[i], q) ensures q in Markers(table) {
      assert ParseMarker(table[i]).value == q;
    }
  }

  lemma {:induction false} MarkersFromRows(table: seq<Row>)
    ensures forall q :: q in Markers(table) ==> exists i :: 0 <= i < |table| && RowMarks(table[i], q)
  {
    if table != [] {
      var n := |table| - 1;
      var init := table[..n];
      MarkersSnoc(table);
      MarkersFromRows(init);
      assert forall j :: 0 <= j < n ==> init[j] == table[j];
      forall q | q in Markers(table)
        ensures exists i :: 0 <= i < |table| && RowMarks(table[i], q)
      {
        if q in Markers(init) {
          var i :| 0 <= i < |init| && RowMarks(init[i], q);
          assert RowMarks(table[i], q);
        } else {
          assert RowMarks(table[n], q);
        }
      }
    }
  }

  lemma {:induction false} RowsGiveMarkers(table: seq<Row>)
    ensures forall i :: 0 <= i < |table| && ParseMarker(table[i]).Some? ==> ParseMarker(table[i]).value in Markers(table)
  {
    if table != [] {
      var n := |table| - 1;
      var init := table[..n];
      MarkersSnoc(table);
      assert forall j :: 0 <= j < n ==> init[j] == table[j];
      RowsGiveMarkers(init);
    }
  }

  /** The last row's marker, if any, comes after those of the rows before it. */
  lemma MarkersSnoc(table: seq<Row>)
    requires table != []
    ensures var m := ParseMarker(table[|table| - 1]);
      Markers(table) == Markers(table[..|table| - 1]) + (if m.Some? then [m.value] else [])
  {
  }

  /** The markers keep the rows' order: those of the first k rows are a
      prefix of those of the whole table. */
  lemma {:induction false} MarkersPrefix(table: seq<Row>, k: int)
    requires 0 <= k <= |table|
    ensures var p := Markers(table[..k]);
      |p| <= |Markers(table)| && p == Markers(table)[..|p|]
  {
    if k < |table| {
      var n := |table| - 1;
      var init := table[..n];
      var m := ParseMarker(table[n]);
      var tail := if m.Some? then [m.value] else [];
      MarkersSnoc(table);
      MarkersPrefix(init, k);
      assert init[..k] == table[..k];
      var p := Markers(table[..k]);
      PrefixOfAppend(p, Markers(init), tail);
      assert Markers(table) == Markers(init) + tail;
    } else {
      assert table[..k] == table;
      var all := Markers(table);
      assert all[..|all|] == all;
    }
  }

  /** A prefix of `a` is a prefix of `a + b`. */
  lemma PrefixOfAppend<T>(p: seq<T>, a: seq<T>, b: seq<T>)
    requires |p| <= |a| && p == a[..|p|]
    ensures |p| <= |a + b| && p == (a + b)[..|p|]
  {
    assert (a + b)[..|p|] == a[..|p|];
  }

  /** The grid cell of a marker's top-left corner: `(x // 10, y // 10)`.
      Dafny's `/` and Python's `//` agree for a positive divisor. */
  function Cell(q: Quantity): (int, int) {
    (q.box.x / CELL, q.box.y / CELL)
  }

  /** Twice the horizontal centre, `2 * (x + w/2)`: it orders markers the
      same way the centre does, without fractions. */
  function DoubledCx(q: Quantity): int {
    2 * q.box.x + q.box.w
  }

  /** Marker i is the first in its grid cell. */
  predicate FirstInCell(qs: seq<Quantity>, i: int)
    requires 0 <= i < |qs|
  {
    forall j :: 0 <= j < i ==> Cell(qs[j]) != Cell(qs[i])
  }

  predicate HasCell(qs: seq<Quantity>, k: (int, int)) {
    exists i :: 0 <= i < |qs| && Cell(qs[i]) == k
  }

  predicate CellsDistinct(qs: seq<Quantity>) {
    forall i, j :: 0 <= i < j < |qs| ==> Cell(qs[i]) != Cell(qs[j])
  }

  /** Reference definition of the de-duplication: keep each marker that
      is the first of its grid cell, in detection order. */
  function FirstPerCell(qs: seq<Quantity>): (r: seq<Quantity>)
    ensures |r| <= |qs|
  {
    if qs == [] then []
    else FirstPerCell(qs[..|qs| - 1]) + (if FirstInCell(qs, |qs| - 1) then [qs[|qs| - 1]] else [])
  }

  /** Unfolding FirstPerCell once: the last marker is kept exactly when
      no earlier marker took its cell. */
  lemma FirstPerCellLast(qs: seq<Quantity>)
    requires qs != []
    ensures var n := |qs| - 1;
      FirstPerCell(qs) == FirstPerCell(qs[..n]) + (if HasCell(qs[..n], Cell(qs[n])) then [] else [qs[n]])
  {
    var n := |qs| - 1;
    var init := qs[..n];
    if !FirstInCell(qs, n) {
      var j :| 0 <= j < n && Cell(qs[j]) == Cell(qs[n]);
      assert Cell(init[j]) == Cell(qs[n]);
    } else {
      forall j | 0 <= j < n ensures Cell(init[j]) != Cell(qs[n]) {
        assert init[j] == qs[j];
      }
    }
  }

  /** Whether a marker is first in its cell depends only on what precedes it. */
  lemma FirstInCellPrefix(qs: seq<Quantity>, m: int, i: int)
    requires 0 <= i < m <= |qs|
    ensures FirstInCell(qs[..m], i) <==> FirstInCell(qs, i)
  {
    assert forall j :: 0 <= j <= i ==> qs[..m][j] == qs[j];
  }

  /** Every grid cell that held a marker still holds one after the
      de-duplication, and no other cell does. */
  lemma {:induction false} FirstPerCellCells(qs: seq<Quantity>)
    ensures forall k :: HasCell(FirstPerCell(qs), k) <==> HasCell(qs, k)
  {
    if qs != [] {
      var n := |qs| - 1;
      var init := qs[..n];
      var last := qs[n];
      FirstPerCellCells(init);
      FirstPerCellLast(qs);
      var p := FirstPerCell(init);
      var r := FirstPerCell(qs);
      forall k ensures HasCell(r, k) <==> HasCell(qs, k) {
        if HasCell(qs, k) {
          var i :| 0 <= i < |qs| && Cell(qs[i]) == k;
          if i < n || HasCell(init, Cell(last)) {
            assert HasCell(init, k) by {
              if i < n { assert Cell(init[i]) == k; }
            }
            var j :| 0 <= j < |p| && Cell(p[j]) == k;
            assert r[j] == p[j];
          } else {
            assert r[|p|] == last;
          }
        }
        if HasCell(r, k) {
          var j :| 0 <= j < |r| && Cell(r[j]) == k;
          if j < |p| {
            assert Cell(p[j]) == k;
            assert HasCell(p, k);
            var i :| 0 <= i < |init| && Cell(init[i]) == k;
            assert Cell(qs[i]) == k;
          } else {
            assert Cell(qs[n]) == k;
          }
        }
      }
    }
  }

  /** No two markers left by the de-duplication share a grid cell. */
  lemma {:induction false} FirstPerCellDistinct(qs: seq<Quantity>)
    ensures CellsDistinct(FirstPerCell(qs))
  {
    if qs != [] {
      var n := |qs| - 1;
      FirstPerCellDistinct(qs[..n]);
      FirstPerCellCells(qs[..n]);
      FirstPerCellLast(qs);
      var p := FirstPerCell(qs[..n]);
      if !HasCell(qs[..n], Cell(qs[n])) {
        assert forall j :: 0 <= j < |p| ==> Cell(p[j]) != Cell(qs[n]);
      }
    }
  }

  /** The marker detected first in each grid cell survives. */
  lemma {:induction false} FirstPerCellKeepsFirsts(qs: seq<Quantity>)
    ensures forall i :: 0 <= i < |qs| && FirstInCell(qs, i) ==> qs[i] in FirstPerCell(qs)
  {
    if qs != [] {
      var n := |qs| - 1;
      var init := qs[..n];
      FirstPerCellKeepsFirsts(init);
      FirstPerCellLast(qs);
      forall i | 0 <= i < |qs| && FirstInCell(qs, i) ensures qs[i] in FirstPerCell(qs) {
        if i < n {
          FirstInCellPrefix(qs, n, i);
          assert init[i] == qs[i];
        } else {
          forall j | 0 <= j < |init| ensures Cell(init[j]) != Cell(qs[n]) {
            assert init[j] == qs[j];
          }
          assert !HasCell(init, Cell(qs[n]));
        }
      }
    }
  }

  /** Every marker the de-duplication keeps is the first detected in its
      cell. */
  lemma {:induction false} FirstPerCellOnlyFirsts(qs: seq<Quantity>)
    ensures forall q :: q in FirstPerCell(qs) ==> exists i :: 0 <= i < |qs| && FirstInCell(qs, i) && qs[i] == q
  {
    if qs != [] {
      var n := |qs| - 1;
      var init := qs[..n];
      FirstPerCellOnlyFirsts(init);
      FirstPerCellLast(qs);
      forall q | q in FirstPerCell(qs)
        ensures exists i :: 0 <= i < |qs| && FirstInCell(qs, i) && qs[i] == q
      {
        if q in FirstPerCell(init) {
          var i :| 0 <= i < |init| && FirstInCell(init, i) && init[i] == q;
          FirstInCellPrefix(qs, n, i);
          assert FirstInCell(qs, i) && qs[i] == q;
        } else {
          assert !HasCell(init, Cell(qs[n])) && q == qs[n];
          forall j | 0 <= j < n ensures Cell(qs[j]) != Cell(qs[n]) {
            assert qs[j] == init[j];
          }
          assert FirstInCell(qs, n);
        }
      }
    }
  }

  predicate SortedByCx(qs: seq<Quantity>) {
    forall i, j :: 0 <= i < j < |qs| ==> DoubledCx(qs[i]) <= DoubledCx(qs[j])
  }

  /** The markers whose doubled centre is c, in order. */
  function WithCx(qs: seq<Quantity>, c: int): seq<Quantity> {
    if qs == [] then []
    else (if DoubledCx(qs[0]) == c then [qs[0]] else []) + WithCx(qs[1..], c)
  }

  /** Insertion into a sorted list, ahead of every marker with an equal
      or larger centre. */
  function InsertByCx(q: Quantity, s: seq<Quantity>): (r: seq<Quantity>)
    ensures |r| == |s| + 1
  {
    if s == [] || DoubledCx(q) <= DoubledCx(s[0]) then [q] + s
    else [s[0]] + InsertByCx(q, s[1..])
  }

  /** Insertion adds exactly the one marker. */
  lemma {:induction false} InsertByCxPerm(q: Quantity, s: seq<Quantity>)
    ensures multiset(InsertByCx(q, s)) == multiset(s) + multiset{q}
  {
    if !(s == [] || DoubledCx(q) <= DoubledCx(s[0])) {
      InsertByCxPerm(q, s[1..]);
      assert s == [s[0]] + s[1..];
    }
  }

  /** The markers of an insertion are those of the list and the new one. */
  lemma {:induction false} InsertByCxMembers(q: Quantity, s: seq<Quantity>)
    ensures forall e :: e in InsertByCx(q, s) <==> e in s || e == q
  {
    if !(s == [] || DoubledCx(q) <= DoubledCx(s[0])) {
      InsertByCxMembers(q, s[1..]);
      assert s == [s[0]] + s[1..];
    }
  }

  /** A lower bound on the centres of q and of s bounds the centres of
      the insertion. */
  lemma {:induction false} InsertByCxBound(q: Quantity, s: seq<Quantity>, b: int)
    requires b <= DoubledCx(q)
    requires forall j :: 0 <= j < |s| ==> b <= DoubledCx(s[j])
    ensures forall j :: 0 <= j < |InsertByCx(q, s)| ==> b <= DoubledCx(InsertByCx(q, s)[j])
  {
    if !(s == [] || DoubledCx(q) <= DoubledCx(s[0])) {
      InsertByCxBound(q, s[1..], b);
    }
  }

  /** Insertion into a sorted list keeps it sorted. */
  lemma {:induction false} InsertByCxSorted(q: Quantity, s: seq<Quantity>)
    requires SortedByCx(s)
    ensures SortedByCx(InsertByCx(q, s))
  {
    var r := InsertByCx(q, s);
    if s == [] || DoubledCx(q) <= DoubledCx(s[0]) {
      assert forall j :: 0 < j < |r| ==> r[j] == s[j - 1];
    } else {
      var t := InsertByCx(q, s[1..]);
      assert forall j :: 0 <= j < |s[1..]| ==> s[1..][j] == s[j + 1];
      InsertByCxSorted(q, s[1..]);
      InsertByCxBound(q, s[1..], DoubledCx(s[0]));
      assert forall j :: 0 < j < |r| ==> r[j] == t[j - 1];
    }
  }

  /** Inserting q adds q to the markers of its own centre, in front of
      them, and leaves every other centre's markers as they were. */
  lemma {:induction false} InsertByCxStable(q: Quantity, s: seq<Quantity>, c: int)
    ensures WithCx(InsertByCx(q, s), c) == (if DoubledCx(q) == c then [q] else []) + WithCx(s, c)
  {
    var r := InsertByCx(q, s);
    if s == [] || DoubledCx(q) <= DoubledCx(s[0]) {
      assert r[0] == q && r[1..] == s;
    } else {
      var t := InsertByCx(q, s[1..]);
      InsertByCxStable(q, s[1..], c);
      assert r[0] == s[0] && r[1..] == t;
      var head := if DoubledCx(s[0]) == c then [s[0]] else [];
      assert WithCx(r, c) == head + WithCx(t, c);
      assert WithCx(s, c) == head + WithCx(s[1..], c);
      if DoubledCx(q) == c {
        assert head == [];
      }
    }
  }

  /** Inserting a marker whose cell is new keeps the cells distinct. */
  lemma {:induction false} InsertByCxCells(q: Quantity, s: seq<Quantity>)
    requires CellsDistinct(s) && !HasCell(s, Cell(q))
    ensures CellsDistinct(InsertByCx(q, s))
  {
    var r := InsertByCx(q, s);
    if s == [] || DoubledCx(q) <= DoubledCx(s[0]) {
      assert forall j :: 0 <= j < |s| ==> Cell(s[j]) != Cell(q);
      assert r == [q] + s;
    } else {
      var t := InsertByCx(q, s[1..]);
      assert forall j :: 0 <= j < |s[1..]| ==> s[1..][j] == s[j + 1];
      InsertByCxCells(q, s[1..]);
      InsertByCxMembers(q, s[1..]);
      forall e | e in t ensures Cell(e) != Cell(s[0]) {
        if e != q {
          var m :| 0 <= m < |s[1..]| && s[1..][m] == e;
          assert s[m + 1] == e;
        }
      }
      assert r == [s[0]] + t;
      forall i, j | 0 <= i < j < |r| ensures Cell(r[i]) != Cell(r[j]) {
        if i == 0 {
          assert r[j] == t[j - 1] && t[j - 1] in t;
        } else {
          assert r[i] == t[i - 1] && r[j] == t[j - 1];
        }
      }
    }
  }

  function IndexOf(s: seq<Quantity>, e: Quantity): (i: int)
    requires e in s
    ensures 0 <= i < |s| && s[i] == e
  {
    if s[0] == e then 0 else 1 + IndexOf(s[1..], e)
  }

  /** Python's stable `list.sort(key=cx)`: each marker is inserted ahead of
      the later markers with the same centre, so equal centres keep their
      detection order. */
  function SortByCx(qs: seq<Quantity>): (r: seq<Quantity>)
    ensures |r| == |qs|
  {
    if qs == [] then [] else InsertByCx(qs[0], SortByCx(qs[1..]))
  }

  /** The sort is a permutation. */
  lemma {:induction false} SortByCxPerm(qs: seq<Quantity>)
    ensures multiset(SortByCx(qs)) == multiset(qs)
  {
    if qs != [] {
      SortByCxPerm(qs[1..]);
      InsertByCxPerm(qs[0], SortByCx(qs[1..]));
      assert qs == [qs[0]] + qs[1..];
    }
  }

  /** The sort keeps exactly the markers it was given. */
  lemma {:induction false} SortByCxMembers(qs: seq<Quantity>)
    ensures forall e :: e in SortByCx(qs) <==> e in qs
  {
    if qs != [] {
      SortByCxMembers(qs[1..]);
      InsertByCxMembers(qs[0], SortByCx(qs[1..]));
      assert qs == [qs[0]] + qs[1..];
    }
  }

  /** The sort orders by centre. */
  lemma {:induction false} SortByCxSorted(qs: seq<Quantity>)
    ensures SortedByCx(SortByCx(qs))
  {
    if qs != [] {
      SortByCxSorted(qs[1..]);
      InsertByCxSorted(qs[0], SortByCx(qs[1..]));
    }
  }

  /** The sort is stable: the markers sharing any one centre come out in
      the order they went in. */
  lemma {:induction false} SortByCxStable(qs: seq<Quantity>, c: int)
    ensures WithCx(SortByCx(qs), c) == WithCx(qs, c)
  {
    if qs != [] {
      SortByCxStable(qs[1..], c);
      InsertByCxStable(qs[0], SortByCx(qs[1..]), c);
    }
  }

  /** Sorting neither merges nor splits grid cells. */
  lemma {:induction false} SortByCxCells(qs: seq<Quantity>)
    ensures forall k :: HasCell(SortByCx(qs), k) <==> HasCell(qs, k)
    ensures CellsDistinct(qs) ==> CellsDistinct(SortByCx(qs))
  {
    var r := SortByCx(qs);
    SortByCxMembers(qs);
    forall k ensures HasCell(r, k) <==> HasCell(qs, k) {
      if HasCell(r, k) {
        var j :| 0 <= j < |r| && Cell(r[j]) == k;
        assert r[j] in qs;
        var i := IndexOf(qs, r[j]);
      }
      if HasCell(qs, k) {
        var i :| 0 <= i < |qs| && Cell(qs[i]) == k;
        assert qs[i] in r;
        var j := IndexOf(r, qs[i]);
      }
    }
    if qs != [] && CellsDistinct(qs) {
      var t := SortByCx(qs[1..]);
      assert CellsDistinct(qs[1..]);
      SortByCxCells(qs[1..]);
      assert forall j :: 0 <= j < |qs[1..]| ==> qs[1..][j] == qs[j + 1];
      InsertByCxCells(qs[0], t);
    }
  }

  /** The markers of a page, as `extract_quantities` returns them. */
  function QuantitiesOf(page: Image, pageOcr: seq<RawRow>): seq<Quantity> {
    SortByCx(FirstPerCell(Markers(OcrTable(page, pageOcr, MIN_CONF_QTY))))
  }

  lemma MarkersStep(table: seq<Row>, i: int)
    requires 0 <= i < |table|
    ensures Markers(table[..i + 1]) ==
      Markers(table[..i]) + (if ParseMarker(table[i]).Some? then [ParseMarker(table[i]).value] else [])
  {
    assert table[..i + 1][..i] == table[..i];
  }

  lemma HasCellStep(qs: seq<Quantity>, q: Quantity, k: (int, int))
    ensures HasCell(qs + [q], k) <==> HasCell(qs, k) || Cell(q) == k
  {
    if HasCell(qs + [q], k) && Cell(q) != k {
      var j :| 0 <= j < |qs + [q]| && Cell((qs + [q])[j]) == k;
      assert Cell(qs[j]) == k;
    }
    if HasCell(qs, k) {
      var j :| 0 <= j < |qs| && Cell(qs[j]) == k;
      assert Cell((qs + [q])[j]) == k;
    }
    assert Cell((qs + [q])[|qs|]) == Cell(q);
  }

  /** The grid cells a list of markers occupies. */
  function Cells(qs: seq<Quantity>): set<(int, int)> {
    if qs == [] then {} else Cells(qs[..|qs| - 1]) + {Cell(qs[|qs| - 1])}
  }

  /** A cell is among the occupied cells exactly when some marker lies in it. */
  lemma {:induction false} CellsHasCell(qs: seq<Quantity>, k: (int, int))
    ensures k in Cells(qs) <==> HasCell(qs, k)
  {
    if qs != [] {
      var n := |qs| - 1;
      CellsHasCell(qs[..n], k);
      HasCellStep(qs[..n], qs[n], k);
      assert qs[..n] + [qs[n]] == qs;
    }
  }

  /** One step of the de-duplication loop: a new marker is kept exactly
      when its cell is not yet taken, and its cell is taken afterwards. */
  lemma DedupStep(before: seq<Quantity>, q: Quantity)
    ensures FirstPerCell(before + [q]) == FirstPerCell(before) + (if Cell(q) in Cells(before) then [] else [q])
    ensures Cells(before + [q]) == Cells(before) + {Cell(q)}
  {
    FirstPerCellLast(before + [q]);
    assert (before + [q])[..|before|] == before;
    CellsHasCell(before, Cell(q));
  }

  /** One iteration of the scan: a row that is not a marker changes
      nothing; a marker is kept exactly when its cell is not yet taken,
      and its cell is taken afterwards. */
  lemma ScanStep(table: seq<Row>, i: int)
    requires 0 <= i < |table|
    ensures var m := ParseMarker(table[i]);
      var before := Markers(table[..i]);
      var after := Markers(table[..i + 1]);
      (m.None? ==> FirstPerCell(after) == FirstPerCell(before) && Cells(after) == Cells(before)) &&
      (m.Some? && Cell(m.value) in Cells(before) ==> FirstPerCell(after) == FirstPerCell(before) && Cells(after) == Cells(before)) &&
      (m.Some? && Cell(m.value) !in Cells(before) ==>
         (FirstPerCell(after) == FirstPerCell(before) + [m.value] && Cells(after) == Cells(before) + {Cell(m.value)}))
  {
    MarkersStep(table, i);
    var m := ParseMarker(table[i]);
    var before := Markers(table[..i]);
    if m.Some? {
      assert Markers(table[..i + 1]) == before + [m.value];
      DedupStep(before, m.value);
      if Cell(m.value) in Cells(before) {
        assert Cells(before) + {Cell(m.value)} == Cells(before);
      }
    } else {
      assert Markers(table[..i + 1]) == before;
    }
  }

  /** The loop of `extract_quantities`: one pass over the word table that
      collects the markers and the grid cells already taken, keeping a
      marker only when its cell is new. */
  method ScanMarkers(table: seq<Row>) returns (qs: seq<Quantity>)
    ensures qs == FirstPerCell(Markers(table))
  {
    qs := [];
    var seen: set<(int, int)> := {};
    for i := 0 to |table|
      invariant qs == FirstPerCell(Markers(table[..i]))
      invariant seen == Cells(Markers(table[..i]))
    {
      ScanStep(table, i);
      var r := table[i];
      var t := Lower(Strip(r.text));
      if IsMarkerText(t) {
        var qty := DigitsValue(t[..|t| - 1]);
        var q := Quantity(qty, r.box);
        assert ParseMarker(r) == Some(q);
        var key := (r.box.x / CELL, r.box.y / CELL);
        assert key == Cell(q);
        if key !in seen {
          seen := seen + {key};
          qs := qs + [q];
        }
      } else {
        assert ParseMarker(r) == None;
      }
    }
    assert table[..|table|] == table;
  }

  /** `extract_quantities`: the table scan, then the stable sort by
      centre. The result holds one marker per occupied cell, in
      left-to-right order. */
  method ExtractQuantities(page: Image, pageOcr: seq<RawRow>) returns (qs: seq<Quantity>)
    ensures qs == QuantitiesOf(page, pageOcr)
    ensures SortedByCx(qs)
    ensures CellsDistinct(qs)
    ensures forall k :: HasCell(qs, k) <==> HasCell(Markers(OcrTable(page, pageOcr, MIN_CONF_QTY)), k)
  {
    var table := OcrTable(page, pageOcr, MIN_CONF_QTY);
    qs := ScanMarkers(table);
    FirstPerCellDistinct(Markers(table));
    FirstPerCellCells(Markers(table));
    SortByCxCells(qs);
    SortByCxSorted(qs);
    qs := SortByCx(qs);
  }
}

=== FILE: single_crop.dfy ===
/** The manual fallback for one crop (`analyze_single_crop_for_api`): a
    single recognition pass over the whole crop; the last quantity word
    sets the quantity, and the first identifier word of highest confidence
    becomes the part id. */
module SingleCrop {
  import opened Wrappers
  import opened Text

  /** Words read with a confidence below this are ignored. */
  const MIN_CONF_WORD: real := 30.0
  /** The quantity reported when no quantity word is read. */
  const DEFAULT_QTY: nat := 1
  /** The part id reported when no identifier word is read. */
  const UNKNOWN: string := "UNKNOWN"
  /** An all-digit word is an identifier only when its value exceeds this. */
  const MAX_PLAIN_NUMBER: nat := 20

  /** One entry of the engine's word list: its text and confidence. */
  datatype Word = Word(text: string, conf: real)

  predicate IsX(c: char) { c == 'x' || c == 'X' }

  /** `re.fullmatch(r"\d+[xX]", w) or re.fullmatch(r"[xX]\d+", w)`. */
  predicate IsQuantityWord(w: string) {
    |w| >= 2 &&
    ((AllDigits(w[..|w| - 1]) && IsX(w[|w| - 1])) || (IsX(w[0]) && AllDigits(w[1..])))
  }

  /** `(w.isdigit() and int(w) > 20) or (re.search(r"\d", w) and
      re.search(r"[a-zA-Z]", w))`. */
  predicate IsIdWord(w: string) {
    (|w| >= 1 && AllDigits(w) && DigitsValue(w) > MAX_PLAIN_NUMBER) || (HasDigit(w) && HasLetter(w))
  }

  /** A word takes part only when its stripped text is not empty and its
      confidence is at least 30. */
  predicate Considered(word: Word) {
    Strip(word.text) != [] && word.conf >= MIN_CONF_WORD
  }

  /** The quantity a word sets, if any: the first run of digits of a
      quantity word. */
  function QtyReading(word: Word): (n: Option<nat>)
    ensures n.Some? ==> Considered(word) && IsQuantityWord(Strip(word.text))
  {
    var t := Strip(word.text);
    if Considered(word) && IsQuantityWord(t) && FirstDigitRun(t).Some? then Some(DigitsValue(FirstDigitRun(t).value))
    else None
  }

  /** A word competes for the part id: it is considered, is not a quantity
      word, and reads as an identifier. */
  predicate IdHit(word: Word) {
    var t := Strip(word.text);
    Considered(word) && !IsQuantityWord(t) && IsIdWord(t)
  }

  /** Reference definition of the quantity: the reading of the last word
      that has one, or 1. */
  function QuantityOf(words: seq<Word>): nat {
    if words == [] then DEFAULT_QTY
    else
      var n := QtyReading(words[|words| - 1]);
      if n.Some? then n.value else QuantityOf(words[..|words| - 1])
  }

  /** Reference definition of the identifier scan: the running part id
      and its confidence, starting from ("UNKNOWN", 0); a hit replaces
      them only when its confidence is strictly higher. */
  function IdScan(words: seq<Word>): (string, real) {
    if words == [] then (UNKNOWN, 0.0)
    else
      var (id, conf) := IdScan(words[..|words| - 1]);
      var w := words[|words| - 1];
      if IdHit(w) && w.conf > conf then (Strip(w.text), w.conf) else (id, conf)
  }

  /** A quantity word's digits are its first digit run, so the `if nums`
      guard always holds for it. */
  lemma QuantityWordDigits(t: string)
    requires IsQuantityWord(t)
    ensures FirstDigitRun(t).Some?
  {
    if AllDigits(t[..|t| - 1]) && IsX(t[|t| - 1]) {
      assert t[..|t| - 1] + [t[|t| - 1]] == t;
      FirstDigitRunOfMarker(t[..|t| - 1], t[|t| - 1]);
    } else {
      assert [t[0]] + t[1..] == t;
      FirstDigitRunOfMarker(t[1..], t[0]);
    }
  }

  /** A considered word sets a quantity exactly when its stripped text is
      a quantity word. */
  lemma QtyReadingIffPattern(word: Word)
    ensures QtyReading(word).Some? <==> Considered(word) && IsQuantityWord(Strip(word.text))
  {
    if Considered(word) && IsQuantityWord(Strip(word.text)) {
      QuantityWordDigits(Strip(word.text));
    }
  }

  /** Writing a count as "<n>x", "<n>X", "x<n>" or "X<n>" and reading it
      back yields n. */
  lemma QuantityRoundTrip(n: nat, marker: char, conf: real)
    requires IsX(marker) && conf >= MIN_CONF_WORD
    ensures QtyReading(Word(Numeral(n) + [marker], conf)) == Some(n)
    ensures QtyReading(Word([marker] + Numeral(n), conf)) == Some(n)
  {
    NumeralValue(n);
    SuffixQuantityReads(Numeral(n), marker, conf);
    PrefixQuantityReads(Numeral(n), marker, conf);
  }

  /** Digits followed by `x` or `X` set the quantity to the digits' value. */
  lemma SuffixQuantityReads(d: string, marker: char, conf: real)
    requires |d| >= 1 && AllDigits(d) && IsX(marker) && conf >= MIN_CONF_WORD
    ensures QtyReading(Word(d + [marker], conf)) == Some(DigitsValue(d))
  {
    var s := d + [marker];
    assert s[0] == d[0] && s[|s| - 1] == marker;
    StripTrimmed(s);
    assert s[..|s| - 1] == d;
    assert IsQuantityWord(s);
    FirstDigitRunOfMarker(d, marker);
  }

  /** `x` or `X` followed by digits sets the quantity to the digits' value. */
  lemma PrefixQuantityReads(d: string, marker: char, conf: real)
    requires |d| >= 1 && AllDigits(d) && IsX(marker) && conf >= MIN_CONF_WORD
    ensures QtyReading(Word([marker] + d, conf)) == Some(DigitsValue(d))
  {
    var s := [marker] + d;
    assert s[0] == marker && s[|s| - 1] == d[|d| - 1];
    StripTrimmed(s);
    assert s[1..] == d;
    assert IsQuantityWord(s);
    FirstDigitRunOfMarker(d, marker);
  }

  /** The fallback id "UNKNOWN" is never an identifier word. */
  lemma UnknownIsNotId()
    ensures !IsIdWord(UNKNOWN)
  {
    assert !IsDigit(UNKNOWN[0]);
    assert forall i :: 0 <= i < |UNKNOWN| ==> !IsDigit(UNKNOWN[i]);
  }

  /** A plain number up to 20 is neither a quantity nor an identifier. */
  lemma SmallNumberIgnored(t: string)
    requires |t| >= 1 && AllDigits(t) && DigitsValue(t) <= MAX_PLAIN_NUMBER
    ensures !IsQuantityWord(t) && !IsIdWord(t)
  {
    assert forall i :: 0 <= i < |t| ==> !IsLetter(t[i]);
  }

  /** With no word carrying a quantity, the quantity is 1. */
  lemma {:induction false} QuantityDefault(words: seq<Word>)
    requires forall j :: 0 <= j < |words| ==> QtyReading(words[j]).None?
    ensures QuantityOf(words) == DEFAULT_QTY
  {
    if words != [] {
      QuantityDefault(words[..|words| - 1]);
    }
  }

  /** The last word carrying a quantity decides it. */
  lemma {:induction false} QuantityFromLast(words: seq<Word>, i: int)
    requires 0 <= i < |words| && QtyReading(words[i]).Some?
    requires forall j :: i < j < |words| ==> QtyReading(words[j]).None?
    ensures QuantityOf(words) == QtyReading(words[i]).value
  {
    if i < |words| - 1 {
      QuantityFromLast(words[..|words| - 1], i);
    }
  }

  /** Every id the scan holds is "UNKNOWN" at confidence 0, or the
      stripped text and confidence of a hit. */
  lemma {:induction false} IdScanSource(words: seq<Word>)
    ensures IdScan(words) == (UNKNOWN, 0.0) ||
      exists j :: 0 <= j < |words| && IdHit(words[j]) && IdScan(words) == (Strip(words[j].text), words[j].conf)
  {
    if words != [] {
      var init := words[..|words| - 1];
      IdScanSource(init);
      if IdScan(words) != IdScan(init) {
        assert IdScan(words) == (Strip(words[|words| - 1].text), words[|words| - 1].conf);
      } else if IdScan(init) != (UNKNOWN, 0.0) {
        var j :| 0 <= j < |init| && IdHit(init[j]) && IdScan(init) == (Strip(init[j].text), init[j].conf);
        assert words[j] == init[j];
      }
    }
  }

  /** The part id is "UNKNOWN" exactly when no word is a hit. */
  lemma {:induction false} IdUnknownIffNoHit(words: seq<Word>)
    ensures IdScan(words).0 == UNKNOWN <==> forall j :: 0 <= j < |words| ==> !IdHit(words[j])
  {
    IdScanSource(words);
    UnknownIsNotId();
    if exists j :: 0 <= j < |words| && IdHit(words[j]) {
      var j :| 0 <= j < |words| && IdHit(words[j]);
      IdScanAboveHit(words, j);
      assert IdScan(words) != (UNKNOWN, 0.0);
    } else {
      IdScanNoHit(words);
    }
  }

  lemma {:induction false} IdScanNoHit(words: seq<Word>)
    requires forall j :: 0 <= j < |words| ==> !IdHit(words[j])
    ensures IdScan(words) == (UNKNOWN, 0.0)
  {
    if words != [] {
      IdScanNoHit(words[..|words| - 1]);
    }
  }

  /** Once a hit has been read, the running confidence is at least its
      confidence. */
  lemma {:induction false} IdScanAboveHit(words: seq<Word>, j: int)
    requires 0 <= j < |words| && IdHit(words[j])
    ensures IdScan(words).1 >= words[j].conf
  {
    if j < |words| - 1 {
      IdScanAboveHit(words[..|words| - 1], j);
    }
  }

  /** Before the chosen word, the running confidence stays below c when
      every earlier hit is below c. */
  lemma {:induction false} IdScanBelow(words: seq<Word>, c: real)
    requires c > 0.0
    requires forall j :: 0 <= j < |words| && IdHit(words[j]) ==> words[j].conf < c
    ensures IdScan(words).1 < c
  {
    if words != [] {
      IdScanBelow(words[..|words| - 1], c);
    }
  }

  /** The part id is the first hit of highest confidence: a hit strictly
      above every earlier hit and at least every later one. */
  lemma {:induction false} IdFromFirstBest(words: seq<Word>, i: int)
    requires 0 <= i < |words| && IdHit(words[i])
    requires forall j :: 0 <= j < i && IdHit(words[j]) ==> words[j].conf < words[i].conf
    requires forall j :: i < j < |words| && IdHit(words[j]) ==> words[j].conf <= words[i].conf
    ensures IdScan(words) == (Strip(words[i].text), words[i].conf)
  {
    var n := |words| - 1;
    var init := words[..n];
    var w := words[n];
    assert forall j :: 0 <= j < n ==> init[j] == words[j];
    if i < n {
      IdFromFirstBest(init, i);
      assert IdHit(w) ==> w.conf <= words[i].conf;
    } else {
      assert forall j :: 0 <= j < |init| && IdHit(init[j]) ==> init[j].conf < w.conf;
      IdScanBelow(init, w.conf);
    }
  }

  /** `analyze_single_crop_for_api`, on the engine's word list: the last
      quantity word sets the quantity, and a hit replaces the part id only
      when its confidence beats the best so far. */
  method AnalyzeSingleCrop(words: seq<Word>) returns (partId: string, quantity: nat)
    ensures quantity == QuantityOf(words)
    ensures partId == IdScan(words).0
    ensures partId == UNKNOWN <==> forall j :: 0 <= j < |words| ==> !IdHit(words[j])
  {
    quantity := DEFAULT_QTY;
    partId := UNKNOWN;
    var bestConf := 0.0;
    for i := 0 to |words|
      invariant quantity == QuantityOf(words[..i])
      invariant (partId, bestConf) == IdScan(words[..i])
    {
      assert words[..i + 1][..i] == words[..i];
      var word := Strip(words[i].text);
      if word == [] {
        continue;
      }
      var conf := words[i].conf;
      if conf < MIN_CONF_WORD {
        continue;
      }
      if IsQuantityWord(word) {
        var nums := FirstDigitRun(word);
        if nums.Some? {
          quantity := DigitsValue(nums.value);
        }
      } else if (|word| >= 1 && AllDigits(word) && DigitsValue(word) > MAX_PLAIN_NUMBER) || (HasDigit(word) && HasLetter(word)) {
        if conf > bestConf {
          partId := word;
          bestConf := conf;
        }
      }
    }
    assert words[..|words|] == words;
    IdUnknownIffNoHit(words);
  }
}

=== FILE: text.dfy ===
/** Character classes and string operations applied to OCR word texts.
    Texts are ASCII: the engine's character whitelists admit nothing else,
    so the Unicode reach of Python's `\d`, `str.isdigit` and `str.strip`
    is not modelled. */
module Text {
  import opened Wrappers

  /** The ASCII characters Python's `str.strip()` removes: tab, line feed,
      vertical tab, form feed, carriage return, the separators 0x1C-0x1F
      and space. */
  predicate IsSpace(c: char) {
    c == ' ' || 9 <= c as int <= 13 || 28 <= c as int <= 31
  }

  predicate IsDigit(c: char) { '0' <= c <= '9' }

  predicate IsUpper(c: char) { 'A' <= c <= 'Z' }

  /** `[a-zA-Z]` */
  predicate IsLetter(c: char) { IsUpper(c) || 'a' <= c <= 'z' }

  predicate AllDigits(s: string) { forall i :: 0 <= i < |s| ==> IsDigit(s[i]) }

  /** `re.search(r"\d", s)` succeeds */
  predicate HasDigit(s: string) { exists i :: 0 <= i < |s| && IsDigit(s[i]) }

  /** `re.search(r"[a-zA-Z]", s)` succeeds */
  predicate HasLetter(s: string) { exists i :: 0 <= i < |s| && IsLetter(s[i]) }

  /** No leading and no trailing whitespace. */
  predicate Trimmed(s: string) {
    s == [] || (!IsSpace(s[0]) && !IsSpace(s[|s| - 1]))
  }

  function TrimLeft(s: string): (r: string)
    ensures |r| <= |s|
    ensures r == [] || !IsSpace(r[0])
  {
    if s != [] && IsSpace(s[0]) then TrimLeft(s[1..]) else s
  }

  function TrimRight(s: string): (r: string)
    ensures |r| <= |s| && (r == [] || r[0] == s[0])
    ensures r == [] || !IsSpace(r[|r| - 1])
  {
    if s != [] && IsSpace(s[|s| - 1]) then TrimRight(s[..|s| - 1]) else s
  }

  /** Python's `str.strip()`: the result is the slice of `s` left once the
      whitespace at both ends is removed. */
  function Strip(s: string): (r: string)
    ensures Trimmed(r)
    ensures |r| <= |s|
  {
    TrimRight(TrimLeft(s))
  }

  /** Stripping a string with no whitespace at either end changes nothing,
      so stripping twice is stripping once. */
  lemma StripTrimmed(s: string)
    requires Trimmed(s)
    ensures Strip(s) == s
  {
    assert TrimLeft(s) == s;
  }

  lemma StripIdempotent(s: string)
    ensures Strip(Strip(s)) == Strip(s)
  {
    StripTrimmed(Strip(s));
  }

  /** Python's `str.lower()` on ASCII. */
  function LowerChar(c: char): char {
    if IsUpper(c) then (c as int + 32) as char else c
  }

  function Lower(s: string): (r: string)
    ensures |r| == |s|
  {
    seq(|s|, i requires 0 <= i < |s| => LowerChar(s[i]))
  }

  /** `s.replace(" ", "")` */
  function RemoveSpaces(s: string): (r: string)
    ensures |r| <= |s|
    ensures forall i :: 0 <= i < |r| ==> r[i] != ' '
  {
    if s == [] then []
    else RemoveSpaces(s[..|s| - 1]) + (if s[|s| - 1] == ' ' then [] else [s[|s| - 1]])
  }

  /** Removing spaces works character by character: a space disappears
      and any other character stays. */
  lemma RemoveSpacesChar(c: char)
    ensures RemoveSpaces([c]) == if c == ' ' then [] else [c]
  {
    assert [c][..0] == [];
  }

  /** Removing spaces from a concatenation removes them from each part,
      so every other character is kept, in order. */
  lemma {:induction false} RemoveSpacesAppend(a: string, b: string)
    ensures RemoveSpaces(a + b) == RemoveSpaces(a) + RemoveSpaces(b)
  {
    if b == [] {
      assert a + b == a;
    } else {
      var n := |b| - 1;
      assert (a + b)[..|a + b| - 1] == a + b[..n];
      assert (a + b)[|a + b| - 1] == b[n];
      RemoveSpacesAppend(a, b[..n]);
    }
  }

  predicate EndsWith(s: string, suffix: string) {
    |suffix| <= |s| && s[|s| - |suffix|..] == suffix
  }

  function DigitValue(c: char): nat
    requires IsDigit(c)
  {
    c as int - '0' as int
  }

  /** Python's `int(s)` for a string of decimal digits (leading zeros allowed). */
  function DigitsValue(s: string): nat
    requires AllDigits(s)
  {
    if s == [] then 0 else DigitsValue(s[..|s| - 1]) * 10 + DigitValue(s[|s| - 1])
  }

  function DigitChar(d: nat): (c: char)
    requires d < 10
    ensures IsDigit(c) && DigitValue(c) == d
  {
    ('0' as int + d) as char
  }

  /** The decimal numeral of n, as `str(n)` writes it. */
  function Numeral(n: nat): string
    decreases n
  {
    if n < 10 then [DigitChar(n)] else Numeral(n / 10) + [DigitChar(n % 10)]
  }

  /** Reading back a written numeral gives the number: `int(str(n)) == n`. */
  lemma {:induction false} NumeralValue(n: nat)
    ensures |Numeral(n)| >= 1 && AllDigits(Numeral(n))
    ensures DigitsValue(Numeral(n)) == n
    decreases n
  {
    if n >= 10 {
      NumeralValue(n / 10);
      var s := Numeral(n);
      assert s[..|s| - 1] == Numeral(n / 10);
    }
  }

  /** The longest prefix of `s` made of digits. */
  function DigitPrefix(s: string): (r: string)
    ensures |r| <= |s| && r == s[..|r|] && AllDigits(r)
    ensures |r| < |s| ==> !IsDigit(s[|r|])
  {
    if s != [] && IsDigit(s[0]) then [s[0]] + DigitPrefix(s[1..]) else []
  }

  /** `re.findall(r"\d+", s)[0]`, or None when `s` holds no digit. */
  function FirstDigitRun(s: string): (r: Option<string>)
    ensures r.None? <==> !HasDigit(s)
    ensures r.Some? ==> |r.value| >= 1 && AllDigits(r.value)
  {
    if s == [] then None
    else if IsDigit(s[0]) then Some(DigitPrefix(s))
    else
      var r := FirstDigitRun(s[1..]);
      assert HasDigit(s[1..]) ==> HasDigit(s);
      assert HasDigit(s) ==> HasDigit(s[1..]) by {
        if HasDigit(s) {
          var i :| 0 <= i < |s| && IsDigit(s[i]);
          assert i > 0 && IsDigit(s[1..][i - 1]);
        }
      }
      r
  }

  /** d lies in s at i as a whole digit run with no digit before it: every
      character before i is a non-digit, and d is followed by the end of s
      or by a non-digit. */
  predicate FirstRunAt(s: string, i: int, d: string) {
    0 <= i && i + |d| <= |s| && d == s[i..i + |d|] &&
    (forall j :: 0 <= j < i ==> !IsDigit(s[j])) &&
    (i + |d| == |s| || !IsDigit(s[i + |d|]))
  }

  /** The run `findall` returns first is the leftmost maximal run of
      digits of s. */
  lemma {:induction false} FirstDigitRunIsFirst(s: string)
    ensures FirstDigitRun(s).Some? ==> exists i :: FirstRunAt(s, i, FirstDigitRun(s).value)
  {
    if s != [] {
      var r := FirstDigitRun(s);
      if IsDigit(s[0]) {
        var d := DigitPrefix(s);
        assert s[0..|d|] == d;
        assert FirstRunAt(s, 0, d);
      } else if r.Some? {
        var t := s[1..];
        FirstDigitRunIsFirst(t);
        var d := r.value;
        assert FirstDigitRun(t) == r;
        var k :| FirstRunAt(t, k, d);
        assert t[k..k + |d|] == s[k + 1..k + 1 + |d|];
        forall j | 0 <= j < k + 1 ensures !IsDigit(s[j]) {
          if j > 0 {
            assert s[j] == t[j - 1];
          }
        }
        assert k + 1 + |d| < |s| ==> s[k + 1 + |d|] == t[k + |d|];
        assert FirstRunAt(s, k + 1, d);
      }
    }
  }

  /** The first digit run of a digit string followed by a non-digit is the
      whole digit string; and so it is when one non-digit precedes it. */
  lemma {:induction false} FirstDigitRunOfMarker(d: string, c: char)
    requires |d| >= 1 && AllDigits(d) && !IsDigit(c)
    ensures FirstDigitRun(d + [c]) == Some(d)
    ensures FirstDigitRun([c] + d) == Some(d)
  {
    DigitPrefixOf(d, c);
    assert ([c] + d)[1..] == d;
    assert DigitPrefix(d) == d by { DigitPrefixAll(d); }
  }

  lemma {:induction false} DigitPrefixOf(d: string, c: char)
    requires AllDigits(d) && !IsDigit(c)
    ensures DigitPrefix(d + [c]) == d
  {
    if d != [] {
      assert (d + [c])[1..] == d[1..] + [c];
      DigitPrefixOf(d[1..], c);
      assert [d[0]] + d[1..] == d;
    }
  }

  lemma {:induction false} DigitPrefixAll(d: string)
    requires AllDigits(d)
    ensures DigitPrefix(d) == d
  {
    if d != [] {
      DigitPrefixAll(d[1..]);
      assert [d[0]] + d[1..] == d;
    }
  }
}

=== FILE: wrappers.dfy ===
/** The optional value used for "no result" throughout the model. */
module Wrappers {
  datatype Option<+T> = None | Some(value: T)
}
